=== FILE: README.md ===
# Second Brain: entry store, request logic and Drive mirror in Dafny

Second Brain is a small Flask application. It keeps notes, links and documents in one
SQLite table (`entries`). It answers questions about them through a language-model
provider (Claude or Gemini), and it can mirror each entry to Google Drive as an HTML
document. This project models the three pieces of logic inside it as pure functions
over immutable values:

- **The entry store** (`database.py`), as `EntryStore`.
  - The table is a sequence of rows in rowid order plus the AUTOINCREMENT counter.
  - Each statement the application issues is a function on that value: insert, lookup,
    delete, setting the Drive file id, and the listing with its optional search.
  - The schema's constraints are modelled: the `type` CHECK, the NOT NULL title and
    content, and the rowid range.
  - `created_at` is TEXT, so `ORDER BY created_at DESC` compares code point by code
    point (`Text.TextLe`).
  - `LIKE '%q%'` is an ASCII case-insensitive substring test (`Text.ContainsFolded`).
- **The request handlers** (`app.py`), as `Requests`.
  - The title check of `add`.
  - The context selection, rendering, provider dispatch and error string of `chat`.
  - The text and flash messages of `summarize`.
  - Each provider is an oracle: a function value that returns the reply or the message
    of the exception it raised.
- **The Drive mirror** (`drive_sync.py`), as `DriveSync`.
  - `format_entry_as_html`, written as a loop over the content lines.
  - A declarative statement of the same document (`EntryHtml`).
  - The Drive file name.
  - The decisions of `sync_entry_to_drive`, `delete_entry_from_drive` and
    `sync_all_entries`. Drive is an oracle for the service, the folder, file requests
    and trashing.
- **Shared modules.**
  - `Html` is Python's `html.escape` with an inverse, proved to round-trip.
  - `Text` holds `str.split`, `str.join`, `str.strip`, ASCII case folding and text order.
  - `Results` holds `Option` and `Result`.

Three behaviours of the code that a reader might not expect, all kept by the model:

- Only the `add` handler refuses an empty title. `add_entry` and the schema accept
  one, so `EntryStore.Insert` does too.
- `sync_all_entries` catches failures per entry only. A failure of `get_drive_service`
  or `get_or_create_folder` escapes it, so `DriveSync.SyncAll` returns `Err` for those.
- Search uses SQLite's `LIKE`, which folds the case of ASCII letters only, and that is
  what `EntryStore.GetAll` does.

## Model

| member | source | states |
|---|---|---|
| EntryStore.Empty | database.py:13-35 | A fresh table is valid and has no rows, no id finds a row, and the AUTOINCREMENT counter starts at 1 |
| EntryStore.TypeTagValues | app.py:62 | `type.upper()` gives `NOTE`, `LINK` and `DOCUMENT` for the three types |
| EntryStore.ParseType | database.py:19 | A type is accepted exactly when it is `note`, `link` or `document`, and the accepted value names itself |
| EntryStore.Insert | database.py:17-47 | The `INSERT` of `add_entry` against the schema succeeds iff the counter has not passed the largest rowid, the type passes the CHECK, and title and content are not NULL. A full counter is reported as such, and any other refusal as a failed constraint. On success the new id is at least the counter and held by no existing row, the counter becomes one past it, the row reads back with exactly the submitted fields and no Drive file, every other id reads back as before, and the table invariant holds |
| EntryStore.Get | database.py:79-83 | The lookup yields a row of the table carrying that id, and yields nothing exactly when no row has that id |
| EntryStore.GetRow | database.py:18 | In a valid table the lookup of a row's id yields that very row (ids are unique) |
| EntryStore.Delete | database.py:86-90 | Afterwards no row has the id. Every other id reads back as before, the counter is unchanged (ids are not reused), and deleting an absent id leaves the table identical. Validity is preserved |
| EntryStore.RemoveIdAscending | database.py:88 | Deleting rows keeps the remaining ids in increasing order |
| EntryStore.SetDriveFileId | database.py:50-57 | The row with the id gets the file id and keeps every other column. Every other id reads back as before, an absent id changes nothing, and ids, their order and the counter are kept |
| EntryStore.SameIdsSameKeys | database.py:53 | Tables with the same ids in the same order answer lookups for the same ids |
| EntryStore.InsertByDate | database.py:67 | Placing a row into a newest-first list keeps it newest first and adds exactly that row |
| EntryStore.SortNewestFirst | database.py:67 | The result is ordered by `created_at`, non-increasing, and is a permutation of the input |
| EntryStore.GetAll | database.py:60-76 | The listing is newest first and holds each selected row exactly as often as the table does, and no other row. With a non-empty query a row is selected iff its title or content contains the query ignoring ASCII case; with None or `''` every row is selected |
| EntryStore.SearchWithinAll | database.py:62-74 | A filtered listing never holds more of any row than the unfiltered one, and searching `''` lists exactly the unfiltered rows |
| EntryStore.SearchExact | database.py:62-70 | For a non-empty query a row is in the result iff it is in the table and its title or content contains the query (ASCII case-insensitive substring) |
| EntryStore.GetAllSingle | database.py:60-76 | A table of one selected row lists exactly that row |
| EntryStore.ListingIdsDistinct | database.py:60-76 | No id appears twice in any listing of a valid table |
| Text.ContainsFolded | database.py:66-69 | The LIKE test is true iff the needle occurs at some offset of the text with ASCII letters folded |
| Text.TextLeTotal | database.py:67 | Any two timestamps are comparable in the text order |
| Text.TextLeTransitive | database.py:67 | The text order is transitive |
| Text.TextLeAntisymmetric | database.py:67 | The text order is antisymmetric, so equal timestamps are the only ties |
| Requests.Add | app.py:27-39 | An empty title is refused with "Title is required." and leaves the store unchanged. Otherwise the entry is added iff the type is accepted and ids remain, flashing "Entry added.". The added id was never issued before (it is at least the counter, which becomes one past it) and is held by no row, it reads back as submitted, and no other id changes. A refused insert leaves the store unchanged, and its error escapes with no flash |
| Requests.ProviderFor | app.py:67-70 | The key `"gemini"` selects Gemini and every other key, including unknown ones, selects Claude |
| Requests.RenderEntryFields | app.py:61-63 | A block depends only on type, title, content and url. It starts with `[TYPE] title`, a newline and the content, and what follows is exactly `\nURL: ` and the url when the url is non-empty, and nothing otherwise |
| Requests.RenderEntryLines | app.py:62-63 | For a title, content and url without newlines, the block's lines are the tag line `[TYPE] title`, the content, and `URL: <url>` exactly when the url is non-empty |
| Requests.RenderContext | app.py:61-65 | No entries give the empty context; otherwise the context opens with the first entry's block |
| Requests.ContextEntries | app.py:58-60 | The context entries are the search result or the full listing, each is a row of the table, and there are none exactly when the table is empty |
| Requests.ContextFallback | app.py:58-60 | If some row matches the question the context entries are the search result; if none does they are the full newest-first listing |
| Requests.RenderContextSnoc | app.py:61-65 | Adding an entry to the list appends a blank line and its block while fewer than ten entries are shown, and nothing once ten are; so the context is the first ten blocks in list order |
| Requests.ContextIgnoresTail | app.py:64 | Lists that agree on their first ten entries give the same context |
| Requests.ProviderError | app.py:72 | The error text is `Error from `, the key, `: ` and the message, with key and message readable back at fixed offsets |
| Requests.Chat | app.py:55-72 | The provider the key selects is asked once, with the rendered context and the question. Its reply is the answer verbatim, and a failure becomes "Error from <key>: <message>" instead of escaping |
| Requests.ChatScenarioSingleNote | app.py:58-65 | With one note "Test" / "Hello", asking "Hello" gives the context `[NOTE] Test\nHello` |
| Requests.SummaryTextFields | app.py:85-87 | The summary text depends only on title, content and url. It starts with title, a blank line and the content, and what follows is exactly `\n\nURL: ` and the url when the url is non-empty, and nothing otherwise |
| Requests.SummaryTextLines | app.py:85-87 | For a title, content and url without newlines, the summary text's lines are the title, an empty line and the content, then an empty line and `URL: <url>` exactly when the url is non-empty |
| Requests.Summarize | app.py:78-96 | For an absent id no provider is asked and "Entry not found." is flashed. Otherwise the selected provider gets the summary text once, and the flash is "Summary (<key>): <summary>" or the error string |
| Html.Escape | drive_sync.py:58-77 | Escaped text holds no raw `<` or `>`, and with quote set no raw `"` or `'` |
| Html.EscapeConcat | drive_sync.py:58-59 | Escaping distributes over concatenation |
| Html.UnescapeEscape | drive_sync.py:58-59 | Decoding the escaped text gives back the original for either quote setting, so escaping loses nothing |
| Text.SplitJoin | drive_sync.py:74 | Splitting a join of separator-free parts gives back the parts |
| Text.Split | drive_sync.py:74 | `split('\n')` gives at least one part, no part holds a newline, and joining the parts with newlines restores the content |
| Text.StripEmptyIffBlank | drive_sync.py:76 | `strip()` is empty iff every character is Python whitespace |
| DriveSync.VisibleLines | drive_sync.py:75-76 | The kept lines are at most the input lines, and each holds a non-whitespace character |
| DriveSync.VisibleLinesConcat | drive_sync.py:75-76 | Line filtering distributes over concatenation, keeping order |
| DriveSync.VisibleLine | drive_sync.py:76 | A single line is kept iff it is not all whitespace |
| DriveSync.ParagraphsConcat | drive_sync.py:75-77 | The paragraphs of two line lists are the paragraphs of each, in order: one `<p>` per kept line |
| DriveSync.FormatEntryAsHtml | drive_sync.py:57-79 | The document built by appending, line by line, equals the declarative document: preamble, URL paragraph iff url non-empty, one paragraph per visible content line in order, closing tags |
| DriveSync.HtmlFrame | drive_sync.py:64-78 | The document starts with `<html>` and ends with `</body></html>` |
| DriveSync.HtmlTitleIsEscapedName | drive_sync.py:58-65 | The `<title>` element holds exactly the escaped Drive file name |
| DriveSync.HtmlHeadingIsEscapedTitle | drive_sync.py:67 | The `<h1>` element holds exactly the escaped title; it opens 27 characters after the escaped name in `<title>` ends |
| DriveSync.DriveFileNameParts | drive_sync.py:83-84 | The Drive file name is `[`, the upper-cased type, `] ` and the title, each readable back at a fixed offset |
| DriveSync.UrlParagraphPresent | drive_sync.py:70-72 | The URL paragraph is present iff the url is non-empty. Its `href` value and its link text are both the escaped url, which can neither end the `href` value early nor open a tag |
| DriveSync.PushRequest | drive_sync.py:82-110 | An entry with a file gets an update of that file, otherwise a create in the folder. The name `[TYPE] title` (unescaped) and the HTML are the same in both |
| DriveSync.SyncEntry | drive_sync.py:117-132 | Unconfigured or unauthenticated means nothing happens. A failing service sends nothing and reports its error; so do a missing entry and a failing folder. Once service, entry and folder are there, exactly the entry's push request is sent. If it succeeds, an update records nothing and reports the entry's file, and a create records the id Drive returned on that row only. A failed request leaves the store unchanged and reports its message |
| DriveSync.DeleteFromDrive | drive_sync.py:135-145 | Nothing happens when unconfigured or unauthenticated. Nothing is trashed when the entry is missing or has no file. For a connected entry with a file, a failing service or trash reports its error, and otherwise exactly the entry's own file is trashed |
| DriveSync.PushEntry | drive_sync.py:155-164 | One pass of the loop: success iff the request succeeds; only a successful create records its id, on that entry's row |
| DriveSync.PushAll | drive_sync.py:153-165 | Over the full listing, synced plus errors is the number of entries and errors counts the failing pushes. Every row ends in its pushed form, and ids and counter are unchanged |
| DriveSync.SyncAll | drive_sync.py:148-165 | A service or folder failure escapes, carrying that failure's own message, before anything is touched. Otherwise every entry is pushed once, a failing entry does not stop the loop, synced plus errors equals the number of entries, and each row ends in its pushed form |

## Left out

- The calls in `ai_providers.py` to the Anthropic and Gemini clients are network I/O. Each provider is an oracle argument, and the prompts it builds are not modelled.
- Google OAuth is left out: token refresh, `token.json` writes and `credentials.json`. `is_drive_configured` and `is_drive_authenticated` become the two booleans of `DriveConfig`.
- The internals of `get_drive_service` and `get_or_create_folder` are left out, and so are the bodies of the Drive `files().create/update` calls. Each is an answer of the `Drive` oracle.
- Flask plumbing is left out: `render_template`, `redirect`, request parsing and `app.run`. `flash` is modelled only as a returned message and category.
- The index route and the delete route are left out. They only call `get_all_entries` and `delete_entry`, which are modelled.
- SQLite mechanics are left out: connections, commits, and the `ALTER TABLE` migration with its `try`/`except`. The `drive_file_id` column is taken as present.
- `CURRENT_TIMESTAMP` is read from the clock. It is the `now` parameter of `Insert` and `Add`.
- A NULL url is represented as the empty string. Every reader treats the two alike (`if e["url"]`, `entry["url"] or ""`).
- EntryStore.GetAll: the LIKE wildcards `%` and `_` inside a user query are not modelled. Matching is plain ASCII case-insensitive substring matching.
- EntryStore.SortNewestFirst: rows with equal timestamps come in insertion-sort order. SQLite leaves their order unspecified, and the contracts promise nothing about it.
- EntryStore.Insert: when the counter is full and a constraint also fails, the model reports the full counter, as SQLite chooses the rowid before it checks constraints.
- The `Drive` oracle's `send` is a function of the request alone. Two identical create requests therefore get the same file id, where Drive issues a fresh id per call. No property here relies on file ids being distinct.
- `print` logging of sync errors is left out. The message is kept in the outcome instead.
- EntryStore.TypeTag: Python's `str.upper` is modelled on ASCII letters only. The three type names are ASCII.

=== FILE: drive_sync.dfy ===
/** drive_sync.py: the HTML rendering of an entry and the decisions of the
    one-way mirror to Google Drive. The Drive service is an oracle: obtaining
    the service, finding the folder, and each file request either answer or
    raise, and a raised exception is `Err(message)`. */
module DriveSync {
  import opened Results
  import opened Text
  import opened Html
  import opened EntryStore

  // ---------------------------------------------------------------------------
  // Rendering
  // ---------------------------------------------------------------------------

  /** The Drive document name, `f"[{entry_type}] {entry['title']}"`, left
      unescaped; `create_drive_file` and `update_drive_file` both use it. */
  function DriveFileName(e: Entry): string {
    "[" + TypeTag(e.kind) + "] " + e.title
  }

  /** The bracketed tag and the title can be read back from the file name. */
  lemma DriveFileNameParts(e: Entry)
    ensures var r := DriveFileName(e);
            && |r| == |TypeTag(e.kind)| + 3 + |e.title|
            && r[0] == '[' && r[1..1 + |TypeTag(e.kind)|] == TypeTag(e.kind)
            && r[1 + |TypeTag(e.kind)|..3 + |TypeTag(e.kind)|] == "] "
            && r[|r| - |e.title|..] == e.title
  {
  }

  /** The lines of the content that `if p.strip():` keeps, in order. */
  function VisibleLines(lines: seq<string>): (r: seq<string>)
    ensures |r| <= |lines|
    ensures forall i :: 0 <= i < |r| ==> Strip(r[i]) != ""
  {
    if |lines| == 0 then []
    else
      var last := lines[|lines| - 1];
      VisibleLines(lines[..|lines| - 1]) + (if Strip(last) != "" then [last] else [])
  }

  /** `f"<p>{escape(p)}</p>\n"` */
  function Paragraph(line: string): string {
    "<p>" + Escape(line, true) + "</p>\n"
  }

  function Paragraphs(lines: seq<string>): string {
    if |lines| == 0 then "" else Paragraphs(lines[..|lines| - 1]) + Paragraph(lines[|lines| - 1])
  }

  /** The URL paragraph, present only for a non-empty url:
      `<p><strong>URL:</strong> <a href="U">U</a></p>` and a newline, where
      U is the url escaped with `quote=True`. The concatenation is grouped
      to the right so that each fixed piece starts at a known offset. */
  function UrlParagraph(url: string): string {
    if url == "" then ""
    else
      var u := Escape(url, true);
      "<p><strong>URL:</strong> "
        + ("<a href=\""
        + (u
        + ("\">"
        + (u + "</a></p>\n"))))
  }

  /** The URL paragraph is present exactly when the url is not empty. Its
      `href` value and its link text are both the escaped url, which holds no
      `"` that could end the `href` value early and no `<` that could open a
      tag. */
  lemma UrlParagraphPresent(url: string)
    ensures UrlParagraph(url) == "" <==> url == ""
    ensures url != "" ==> LinksTo(UrlParagraph(url), Escape(url, true))
    ensures '"' !in Escape(url, true) && '<' !in Escape(url, true)
  {
    if url != "" {
      var u := Escape(url, true);
      LinkSlices("<p><strong>URL:</strong> ", "<a href=\"", u, "\">", "</a></p>\n");
    }
  }

  /** `p` is `<p><strong>URL:</strong> <a href="U">U</a></p>` and a
      newline, with `u` as U in both places. */
  predicate LinksTo(p: string, u: string) {
    && |p| == 45 + 2 * |u|
    && p[..25] == "<p><strong>URL:</strong> "
    && p[25..34] == "<a href=\""
    && p[34..34 + |u|] == u
    && p[34 + |u|..36 + |u|] == "\">"
    && p[36 + |u|..36 + 2 * |u|] == u
    && p[36 + 2 * |u|..] == "</a></p>\n"
  }

  lemma LinkSlices(a: string, b: string, u: string, c: string, d: string)
    requires a == "<p><strong>URL:</strong> " && b == "<a href=\"" && c == "\">" && d == "</a></p>\n"
    ensures LinksTo(a + (b + (u + (c + (u + d)))), u)
  {
    var tail := u + (c + (u + d));
    var p := a + (b + tail);
    assert |a| == 25 && |b| == 9 && |c| == 2 && |d| == 9;
    ConcatSlices(a, b, tail);
    LinkTail(u, c, d, tail);
    SuffixSlice(p, 34, 0, |u|);
    SuffixSlice(p, 34, |u|, |u| + 2);
    SuffixSlice(p, 34, |u| + 2, 2 * |u| + 2);
    assert p[..25] == a && p[25..34] == b;
    assert p[34..34 + |u|] == u && p[34 + |u|..36 + |u|] == c;
    assert p[36 + |u|..36 + 2 * |u|] == u && p[36 + 2 * |u|..] == d;
  }

  /** The slices of `u c u d` around its two copies of `u`. */
  lemma LinkTail(u: string, c: string, d: string, tail: string)
    requires tail == u + (c + (u + d))
    ensures |tail| == 2 * |u| + |c| + |d|
    ensures tail[..|u|] == u && tail[|u|..|u| + |c|] == c
    ensures tail[|u| + |c|..2 * |u| + |c|] == u && tail[2 * |u| + |c|..] == d
  {
    ConcatSlices(u, c, u + d);
    ConcatSlices(u, d, "");
  }

  /** A slice of a suffix is a slice of the whole, shifted by the cut. */
  lemma SuffixSlice(p: string, k: nat, i: nat, j: nat)
    requires k <= |p| && i <= j <= |p| - k
    ensures p[k + i..k + j] == p[k..][i..j]
  {
  }

  /** The head title text, `[{entry_type}] {title}` with both parts escaped. */
  function HeadTitle(e: Entry): string {
    "[" + Escape(TypeTag(e.kind), true) + "] " + Escape(e.title, true)
  }

  /** Everything after the head title up to and including the Type/Date
      paragraph, with T the escaped title, K the escaped type tag and D the
      escaped timestamp:
      `</title></head>` `<body>` `<h1>T</h1>`
      `<p><strong>Type:</strong> K &nbsp; <strong>Date:</strong> D</p>`,
      each followed by a newline. Grouped to the right, one piece per line. */
  function Heading(e: Entry): string {
    var kind := Escape(TypeTag(e.kind), true);
    "</title></head>\n<body>\n<h1>"
      + (Escape(e.title, true)
      + ("</h1>\n<p><strong>"
      + ("Type:</strong> "
      + (kind
      + (" &nbsp; <strong>"
      + ("Date:</strong> "
      + (Escape(e.createdAt, true) + "</p>\n")))))))
  }

  /** The fixed opening of every document. */
  const HtmlOpen: string := "<html>\n<head><title>"

  /** Everything up to and including the Type/Date paragraph. */
  function Preamble(e: Entry): string {
    HtmlOpen + (HeadTitle(e) + Heading(e))
  }

  /** The document `format_entry_as_html` produces, stated declaratively:
      preamble, URL paragraph, one paragraph per visible content line, and
      the closing tags. */
  function EntryHtml(e: Entry): string {
    Preamble(e) + UrlParagraph(e.url) + Paragraphs(VisibleLines(Split(e.content, '\n')))
      + "</body></html>"
  }

  lemma VisibleLinesSnoc(lines: seq<string>, i: int)
    requires 0 <= i < |lines|
    ensures Strip(lines[i]) != "" ==> VisibleLines(lines[..i + 1]) == VisibleLines(lines[..i]) + [lines[i]]
    ensures Strip(lines[i]) == "" ==> VisibleLines(lines[..i + 1]) == VisibleLines(lines[..i])
  {
    assert lines[..i + 1][..i] == lines[..i];
  }

  lemma ParagraphsSnoc(lines: seq<string>, line: string)
    ensures Paragraphs(lines + [line]) == Paragraphs(lines) + Paragraph(line)
  {
    assert (lines + [line])[..|lines|] == lines;
  }

  /** `format_entry_as_html(entry)` as written: the document is built by
      appending to a string, one content line at a time. */
  method FormatEntryAsHtml(e: Entry) returns (html: string)
    ensures html == EntryHtml(e)
  {
    html := Preamble(e);
    if e.url != "" {
      html := html + UrlParagraph(e.url);
    } else {
      ConcatEmpty(html);
    }
    ghost var head := html;
    var lines := Split(e.content, '\n');
    ghost var body := Paragraphs(VisibleLines(lines));
    if e.content != "" {
      var i := 0;
      assert lines[..0] == [];
      ConcatEmpty(head);
      while i < |lines|
        invariant 0 <= i <= |lines|
        invariant html == head + Paragraphs(VisibleLines(lines[..i]))
      {
        var p := lines[i];
        ghost var before := VisibleLines(lines[..i]);
        VisibleLinesSnoc(lines, i);
        if Strip(p) != "" {
          ParagraphsSnoc(before, p);
          ConcatAssoc(head, Paragraphs(before), Paragraph(p));
          html := html + Paragraph(p);
        }
        i := i + 1;
      }
      assert lines[..|lines|] == lines;
    } else {
      SplitPlain("", '\n');
      StripEmptyIffBlank("");
      assert body == "";
      ConcatEmpty(head);
    }
    assert html == head + body;
    html := html + "</body></html>";
  }

  /** The document opens with `<html>` and closes with `</body></html>`. */
  lemma HtmlFrame(e: Entry)
    ensures |EntryHtml(e)| >= 6 && EntryHtml(e)[..6] == "<html>"
    ensures |EntryHtml(e)| >= 14 && EntryHtml(e)[|EntryHtml(e)| - 14..] == "</body></html>"
  {
    var p := Preamble(e);
    var u := UrlParagraph(e.url);
    var ps := Paragraphs(VisibleLines(Split(e.content, '\n')));
    assert HtmlOpen[..6] == "<html>";
    PrefixOfConcat(HtmlOpen, HeadTitle(e) + Heading(e), 6);
    PrefixOfConcat(p, u, 6);
    PrefixOfConcat(p + u, ps, 6);
    PrefixOfConcat(p + u + ps, "</body></html>", 6);
  }

  // Properties of the rendering ------------------------------------------------

  /** Filtering the lines distributes over concatenation, and a single line
      survives exactly when it holds a character that is not whitespace. */
  lemma {:induction false} VisibleLinesConcat(a: seq<string>, b: seq<string>)
    ensures VisibleLines(a + b) == VisibleLines(a) + VisibleLines(b)
    decreases |b|
  {
    if |b| == 0 {
      assert a + b == a;
    } else {
      assert (a + b)[..|a + b| - 1] == a + b[..|b| - 1];
      VisibleLinesConcat(a, b[..|b| - 1]);
    }
  }

  lemma VisibleLine(line: string)
    ensures VisibleLines([line]) == if AllSpace(line) then [] else [line]
  {
    StripEmptyIffBlank(line);
    assert [line][..0] == [];
  }

  lemma {:induction false} ParagraphsConcat(a: seq<string>, b: seq<string>)
    ensures Paragraphs(a + b) == Paragraphs(a) + Paragraphs(b)
    decreases |b|
  {
    if |b| == 0 {
      assert a + b == a;
    } else {
      var init := b[..|b| - 1];
      var last := b[|b| - 1];
      assert a + b == (a + init) + [last];
      assert b == init + [last];
      ParagraphsConcat(a, init);
      ParagraphsSnoc(a + init, last);
      ParagraphsSnoc(init, last);
      ConcatAssoc(Paragraphs(a), Paragraphs(init), Paragraph(last));
    }
  }

  lemma TypeTagPlain(t: EntryType)
    ensures forall i :: 0 <= i < |TypeTag(t)| ==> !IsMarkup(TypeTag(t)[i])
  {
    TypeTagValues(t);
    LettersPlain(TypeTag(t));
  }

  /** The three tags are upper-case letters only, so none is markup. */
  lemma LettersPlain(s: string)
    requires s == "NOTE" || s == "LINK" || s == "DOCUMENT"
    ensures forall i :: 0 <= i < |s| ==> !IsMarkup(s[i])
  {
    assert forall i :: 0 <= i < |s| ==> 'A' <= s[i] <= 'Z';
  }

  /** The document's `<title>` is the Drive file name, escaped: the type tag
      has no markup character, so escaping the whole name escapes only the
      title. */
  lemma HtmlTitleIsEscapedName(e: Entry)
    ensures TitledWith(EntryHtml(e), Escape(DriveFileName(e), true))
  {
    var tail := EntryHtmlAfterTitle(e);
    TitleSlices(HtmlOpen, Escape(DriveFileName(e), true), tail);
  }

  /** `html` opens with `<html>\n<head><title>`, then `name`, then
      `</title>`. */
  predicate TitledWith(html: string, name: string) {
    && |html| >= 20 + |name| + 8
    && html[..20] == "<html>\n<head><title>"
    && html[20..20 + |name|] == name
    && html[20 + |name|..20 + |name| + 8] == "</title>"
  }

  lemma EntryHtmlAfterTitle(e: Entry) returns (tail: string)
    ensures EntryHtml(e) == HtmlOpen + (Escape(DriveFileName(e), true) + tail)
    ensures |tail| >= 8 && tail[..8] == "</title>"
    ensures tail == Heading(e) + (UrlParagraph(e.url) + Paragraphs(VisibleLines(Split(e.content, '\n'))) + "</body></html>")
  {
    var heading := Heading(e);
    var body := Paragraphs(VisibleLines(Split(e.content, '\n')));
    var rest := UrlParagraph(e.url) + body + "</body></html>";
    tail := heading + rest;
    assert EntryHtml(e) == HtmlOpen + (Escape(DriveFileName(e), true) + tail) by {
      HeadTitleIsEscapedName(e);
      TailAssoc(HtmlOpen, Escape(DriveFileName(e), true), heading, UrlParagraph(e.url), body, "</body></html>");
    }
    HeadingOpensWithTitleClose(e);
    PrefixOfConcat(heading, rest, 8);
  }

  /** The document's `<h1>` element holds the escaped title. It opens 27
      characters after the escaped name ends: `</title></head>`, a newline,
      `<body>`, a newline and `<h1>` lie between. */
  lemma HtmlHeadingIsEscapedTitle(e: Entry)
    ensures HeadedWith(EntryHtml(e), 20 + |Escape(DriveFileName(e), true)| + 27, Escape(e.title, true))
  {
    var p, x := EntryHtmlAroundHeading(e);
    HeadSlices(EntryHtml(e), 20 + |Escape(DriveFileName(e), true)| + 27, p, Escape(e.title, true), x);
  }

  /** The document cut around the escaped title in `<h1>`. */
  lemma EntryHtmlAroundHeading(e: Entry) returns (p: string, x: string)
    ensures EntryHtml(e) == p + (Escape(e.title, true) + x)
    ensures |p| == 20 + |Escape(DriveFileName(e), true)| + 27 && p[|p| - 4..] == "<h1>"
    ensures |x| >= 5 && x[..5] == "</h1>"
  {
    var name := Escape(DriveFileName(e), true);
    var t := Escape(e.title, true);
    var tail := EntryHtmlAfterTitle(e);
    var rest := UrlParagraph(e.url) + Paragraphs(VisibleLines(Split(e.content, '\n'))) + "</body></html>";
    var lit, after := HeadingAroundTitle(e);
    p := HtmlOpen + name + lit;
    x := after + rest;
    HeadingAssoc(EntryHtml(e), HtmlOpen, name, tail, Heading(e), rest, lit, t, after);
    OpensHeading(HtmlOpen + name, lit);
    PrefixOfConcat(after, rest, 5);
  }

  lemma OpensHeading(a: string, lit: string)
    requires |lit| == 27 && lit[23..] == "<h1>"
    ensures |a + lit| == |a| + 27 && (a + lit)[|a + lit| - 4..] == "<h1>"
  {
    assert (a + lit)[|a| + 23..] == lit[23..];
  }

  /** `html` holds `<h1>`, then `title` from offset `at`, then `</h1>`. */
  predicate HeadedWith(html: string, at: int, title: string) {
    && 4 <= at
    && |html| >= at + |title| + 5
    && html[at - 4..at] == "<h1>"
    && html[at..at + |title|] == title
    && html[at + |title|..at + |title| + 5] == "</h1>"
  }

  lemma HeadSlices(html: string, at: int, p: string, t: string, x: string)
    requires html == p + (t + x) && at == |p|
    requires |p| >= 4 && p[|p| - 4..] == "<h1>"
    requires |x| >= 5 && x[..5] == "</h1>"
    ensures HeadedWith(html, at, t)
  {
    ConcatSlices(p, t, x);
    var s := p + (t + x);
    assert s[|p| - 4..|p|] == p[|p| - 4..];
    assert s[|p| + |t|..|p| + |t| + 5] == x[..5];
  }

  /** `Heading(e)` is `</title></head>\n<body>\n<h1>`, the escaped title,
      and a remainder opening with `</h1>`. */
  lemma HeadingAroundTitle(e: Entry) returns (lit: string, after: string)
    ensures Heading(e) == lit + (Escape(e.title, true) + after)
    ensures |lit| == 27 && lit[23..] == "<h1>"
    ensures |after| >= 5 && after[..5] == "</h1>"
  {
    lit := "</title></head>\n<body>\n<h1>";
    var opening := "</h1>\n<p><strong>";
    var more := "Type:</strong> "
      + (Escape(TypeTag(e.kind), true)
      + (" &nbsp; <strong>"
      + ("Date:</strong> "
      + (Escape(e.createdAt, true) + "</p>\n"))));
    after := opening + more;
    HeadingLiterals(lit, opening);
    PrefixOfConcat(opening, more, 5);
  }

  lemma HeadingLiterals(lit: string, opening: string)
    requires lit == "</title></head>\n<body>\n<h1>" && opening == "</h1>\n<p><strong>"
    ensures |lit| == 27 && lit[23..] == "<h1>"
    ensures |opening| >= 5 && opening[..5] == "</h1>"
  {
  }

  lemma HeadingAssoc(html: string, a: string, b: string, tail: string, heading: string, rest: string,
                     c: string, d: string, f: string)
    requires html == a + (b + tail) && tail == heading + rest && heading == c + (d + f)
    ensures html == (a + b + c) + (d + (f + rest))
  {
  }

  lemma TitleSlices(a: string, b: string, c: string)
    requires a == "<html>\n<head><title>"
    requires |c| >= 8 && c[..8] == "</title>"
    ensures TitledWith(a + (b + c), b)
  {
    ConcatSlices(a, b, c);
    var s := a + (b + c);
    assert s[20 + |b|..20 + |b| + 8] == c[..8];
  }

  lemma HeadTitleIsEscapedName(e: Entry)
    ensures HeadTitle(e) == Escape(DriveFileName(e), true)
  {
    var tag := TypeTag(e.kind);
    TypeTagPlain(e.kind);
    EscapePlain(tag, true);
    EscapePlain("[", true);
    EscapePlain("] ", true);
    EscapeConcat("[", tag, true);
    EscapeConcat("[" + tag, "] ", true);
    EscapeConcat("[" + tag + "] ", e.title, true);
  }

  lemma HeadingOpensWithTitleClose(e: Entry)
    ensures |Heading(e)| >= 8 && Heading(e)[..8] == "</title>"
  {
    var heading := Heading(e);
    var lit := "</title></head>\n<body>\n<h1>";
    assert lit[..8] == "</title>";
    assert heading == lit + heading[|lit|..];
    PrefixOfConcat(lit, heading[|lit|..], 8);
  }

  lemma TailAssoc(a: string, b: string, c: string, d: string, f: string, g: string)
    ensures a + (b + c) + d + f + g == a + (b + (c + (d + f + g)))
  {
  }

  // ---------------------------------------------------------------------------
  // Drive requests and the sync decisions
  // ---------------------------------------------------------------------------

  /** `is_drive_configured()` / `is_drive_authenticated()`: whether
      credentials.json and token.json exist. */
  datatype DriveConfig = DriveConfig(configured: bool, authenticated: bool)

  /** A file request: `files().create` of a Google Docs file in the folder,
      or `files().update` of an existing file's name and body. */
  datatype DriveRequest =
    | CreateFile(name: string, html: string, folderId: string)
    | UpdateFile(fileId: string, name: string, html: string)

  /** The Drive oracle: the result of `get_drive_service()`, of
      `get_or_create_folder(service)`, of sending a file request (the new
      file's id for a create), and of moving a file to the trash. */
  datatype Drive = Drive(
    service: Result<(), string>,
    folder: Result<string, string>,
    send: DriveRequest -> Result<string, string>,
    trash: string -> Result<(), string>)

  /** The request one entry calls for: an update of its file when it has
      one, a new file in the folder otherwise. Name and body are the same
      either way. */
  function PushRequest(e: Entry, folderId: string): (r: DriveRequest)
    ensures r.UpdateFile? <==> HasDriveFile(e)
    ensures r.UpdateFile? ==> r.fileId == e.driveFileId.value
    ensures r.CreateFile? ==> r.folderId == folderId
    ensures r.name == DriveFileName(e) && r.html == EntryHtml(e)
  {
    if HasDriveFile(e) then UpdateFile(e.driveFileId.value, DriveFileName(e), EntryHtml(e))
    else CreateFile(DriveFileName(e), EntryHtml(e), folderId)
  }

  /** The new file id a push records locally: only a create that succeeded
      records one. */
  function NewFileId(drive: Drive, folderId: string, e: Entry): Option<string> {
    var request := PushRequest(e, folderId);
    if request.CreateFile? && drive.send(request).Ok? then Some(drive.send(request).value) else None
  }

  /** The row after its push. */
  function Pushed(drive: Drive, folderId: string, e: Entry): Entry {
    match NewFileId(drive, folderId, e)
    case Some(f) => WithFileId(e, f)
    case None => e
  }

  datatype SyncOutcome =
    | NotConnected
    | EntryMissing
    | SyncedExisting(fileId: string)
    | SyncedNew(fileId: string)
    | SyncFailed(message: string)

  datatype SyncResult = SyncResult(store: Store, sent: Option<DriveRequest>, outcome: SyncOutcome)

  /** `sync_entry_to_drive(entry_id)`. Nothing happens unless Drive is both
      configured and authenticated, and no request is sent when the service
      fails or the entry is missing. An entry with a file has that file
      updated and its row left alone; an entry without one gets a new file
      whose id is recorded on its row and nowhere else. Failures are
      swallowed and leave the store unchanged. */
  function SyncEntry(s: Store, config: DriveConfig, drive: Drive, id: int): (r: SyncResult)
    ensures !config.configured || !config.authenticated ==>
              r.store == s && r.sent.None? && r.outcome == NotConnected
    ensures r.outcome.SyncedNew? ==>
              && Get(s, id).Some? && !HasDriveFile(Get(s, id).value)
              && r.store == SetDriveFileId(s, id, r.outcome.fileId)
    ensures !r.outcome.SyncedNew? ==> r.store == s
    ensures r.outcome.SyncedExisting? ==>
              Get(s, id).Some? && HasDriveFile(Get(s, id).value)
              && r.outcome.fileId == Get(s, id).value.driveFileId.value
    ensures Get(s, id).Some? && HasDriveFile(Get(s, id).value) ==> r.store == s
    ensures Get(s, id).None? ==> r.sent.None?
    ensures r.sent.Some? ==>
              Get(s, id).Some? && drive.folder.Ok? && drive.service.Ok?
              && r.sent.value == PushRequest(Get(s, id).value, drive.folder.value)
    ensures config.configured && config.authenticated && drive.service.Err? ==>
              r == SyncResult(s, None, SyncFailed(drive.service.error))
    ensures config.configured && config.authenticated && drive.service.Ok? && Get(s, id).None? ==>
              r == SyncResult(s, None, EntryMissing)
    ensures config.configured && config.authenticated && drive.service.Ok?
            && Get(s, id).Some? && drive.folder.Err? ==>
              r == SyncResult(s, None, SyncFailed(drive.folder.error))
    ensures config.configured && config.authenticated && drive.service.Ok?
            && Get(s, id).Some? && drive.folder.Ok? ==>
              r.sent == Some(PushRequest(Get(s, id).value, drive.folder.value))
    ensures r.sent.Some? && drive.send(r.sent.value).Ok? ==>
              if r.sent.value.CreateFile? then
                && r.outcome == SyncedNew(drive.send(r.sent.value).value)
                && r.store == SetDriveFileId(s, id, drive.send(r.sent.value).value)
              else
                r.outcome == SyncedExisting(r.sent.value.fileId) && r.store == s
    ensures r.sent.Some? && drive.send(r.sent.value).Err? ==>
              r.outcome == SyncFailed(drive.send(r.sent.value).error) && r.store == s
  {
    if !config.configured || !config.authenticated then SyncResult(s, None, NotConnected)
    else if drive.service.Err? then SyncResult(s, None, SyncFailed(drive.service.error))
    else
      match Get(s, id)
      case None => SyncResult(s, None, EntryMissing)
      case Some(e) =>
        match drive.folder
        case Err(message) => SyncResult(s, None, SyncFailed(message))
        case Ok(folderId) =>
          var request := PushRequest(e, folderId);
          match drive.send(request)
          case Err(message) => SyncResult(s, Some(request), SyncFailed(message))
          case Ok(answer) =>
            if request.UpdateFile? then SyncResult(s, Some(request), SyncedExisting(request.fileId))
            else SyncResult(SetDriveFileId(s, id, answer), Some(request), SyncedNew(answer))
  }

  datatype TrashOutcome =
    | TrashNotConnected
    | NothingToTrash
    | Trashed(fileId: string)
    | TrashFailed(message: string)

  /** `delete_entry_from_drive(entry_id)`: the entry's file is moved to the
      trash only when Drive is configured and authenticated and the entry
      exists with a file; the store is never changed. */
  function DeleteFromDrive(s: Store, config: DriveConfig, drive: Drive, id: int): (r: TrashOutcome)
    ensures r == TrashNotConnected <==> !config.configured || !config.authenticated
    ensures r == NothingToTrash <==>
              config.configured && config.authenticated
              && (Get(s, id).None? || !HasDriveFile(Get(s, id).value))
    ensures r.Trashed? ==>
              Get(s, id).Some? && HasDriveFile(Get(s, id).value)
              && r.fileId == Get(s, id).value.driveFileId.value
              && drive.service.Ok? && drive.trash(r.fileId).Ok?
    ensures config.configured && config.authenticated && Get(s, id).Some?
            && HasDriveFile(Get(s, id).value) ==>
              var f := Get(s, id).value.driveFileId.value;
              if drive.service.Err? then r == TrashFailed(drive.service.error)
              else if drive.trash(f).Err? then r == TrashFailed(drive.trash(f).error)
              else r == Trashed(f)
  {
    if !config.configured || !config.authenticated then TrashNotConnected
    else
      match Get(s, id)
      case None => NothingToTrash
      case Some(e) =>
        if !HasDriveFile(e) then NothingToTrash
        else if drive.service.Err? then TrashFailed(drive.service.error)
        else
          var fileId := e.driveFileId.value;
          match drive.trash(fileId)
          case Ok(_) => Trashed(fileId)
          case Err(message) => TrashFailed(message)
  }

  // ---------------------------------------------------------------------------
  // sync_all_entries
  // ---------------------------------------------------------------------------

  /** How many of `entries` fail to push. */
  function Failures(drive: Drive, folderId: string, entries: seq<Entry>): (n: nat)
    ensures n <= |entries|
  {
    if |entries| == 0 then 0
    else
      var last := entries[|entries| - 1];
      Failures(drive, folderId, entries[..|entries| - 1])
        + (if drive.send(PushRequest(last, folderId)).Err? then 1 else 0)
  }

  lemma FailuresSnoc(drive: Drive, folderId: string, entries: seq<Entry>, i: int)
    requires 0 <= i < |entries|
    ensures Failures(drive, folderId, entries[..i + 1])
         == Failures(drive, folderId, entries[..i])
            + (if drive.send(PushRequest(entries[i], folderId)).Err? then 1 else 0)
  {
    assert entries[..i + 1][..i] == entries[..i];
  }

  /** Pushing `entries[i]` changes the row of that entry alone, to its pushed
      form; the rows of the other entries keep what earlier pushes made of
      them. */
  lemma PushedStep(before: Store, after: Store, drive: Drive, folderId: string, entries: seq<Entry>, i: int)
    requires 0 <= i < |entries|
    requires forall a, b :: 0 <= a < b < |entries| ==> entries[a].id != entries[b].id
    requires forall k :: 0 <= k < |entries| ==>
               Get(before, entries[k].id) == Some(if k < i then Pushed(drive, folderId, entries[k]) else entries[k])
    requires after == match NewFileId(drive, folderId, entries[i])
                      case Some(f) => SetDriveFileId(before, entries[i].id, f)
                      case None => before
    ensures forall k :: 0 <= k < |entries| ==>
              Get(after, entries[k].id) == Some(if k < i + 1 then Pushed(drive, folderId, entries[k]) else entries[k])
  {
    forall k | 0 <= k < |entries|
      ensures Get(after, entries[k].id) == Some(if k < i + 1 then Pushed(drive, folderId, entries[k]) else entries[k])
    {
      if k != i {
        assert entries[k].id != entries[i].id;
      }
    }
  }

  /** The full listing holds every row of the table, and no more. */
  lemma ListingHoldsEveryRow(s: Store)
    ensures |GetAll(s, None)| == |s.rows|
    ensures forall e :: e in s.rows ==> exists k :: 0 <= k < |GetAll(s, None)| && GetAll(s, None)[k] == e
  {
    var entries := GetAll(s, None);
    assert multiset(entries) == multiset(s.rows);
    assert |entries| == |s.rows| by {
      assert |multiset(entries)| == |multiset(s.rows)|;
    }
    forall e | e in s.rows ensures exists k :: 0 <= k < |entries| && entries[k] == e {
      assert e in multiset(entries) by { assert e in multiset(s.rows); }
    }
  }

  /** Each entry of the full listing is the row `get_entry` finds for its
      id, and no id appears twice. */
  lemma ListingRowsFound(s: Store)
    requires Valid(s)
    ensures forall a, b :: 0 <= a < b < |GetAll(s, None)| ==> GetAll(s, None)[a].id != GetAll(s, None)[b].id
    ensures forall k :: 0 <= k < |GetAll(s, None)| ==> Get(s, GetAll(s, None)[k].id) == Some(GetAll(s, None)[k])
  {
    var entries := GetAll(s, None);
    ListingIdsDistinct(s, None);
    forall k | 0 <= k < |entries| ensures Get(s, entries[k].id) == Some(entries[k]) {
      assert entries[k] in multiset(entries);
      GetRow(s, entries[k]);
    }
  }

  datatype Tally = Tally(synced: nat, errors: nat)

  /** One pass of the loop in `sync_all_entries()`: the entry's file is
      updated, or created in the folder; a created file's id is recorded on
      the entry's row. `pushed` tells whether the request succeeded. */
  method PushEntry(s: Store, drive: Drive, folderId: string, e: Entry) returns (s': Store, pushed: bool)
    ensures pushed <==> drive.send(PushRequest(e, folderId)).Ok?
    ensures s' == match NewFileId(drive, folderId, e)
                  case Some(f) => SetDriveFileId(s, e.id, f)
                  case None => s
    ensures Valid(s) ==> Valid(s')
    ensures s'.nextId == s.nextId
    ensures SameIds(s', s)
  {
    var request := PushRequest(e, folderId);
    s' := s;
    match drive.send(request) {
      case Ok(answer) =>
        if request.CreateFile? {
          s' := SetDriveFileId(s, e.id, answer);
        }
        pushed := true;
      case Err(_) =>
        pushed := false;
    }
  }

  /** The loop invariant of `sync_all_entries()`: the first `i` entries of
      the listing are pushed, `errors` of them failed and the others count as
      synced; the rows of pushed entries are in their pushed form and the
      rest are as they were. */
  predicate PushedUpTo(s0: Store, s: Store, drive: Drive, folderId: string, entries: seq<Entry>,
                       i: int, synced: int, errors: int)
  {
    && 0 <= i <= |entries|
    && synced + errors == i
    && errors == Failures(drive, folderId, entries[..i])
    && Valid(s) && s.nextId == s0.nextId && SameIds(s, s0)
    && forall k :: 0 <= k < |entries| ==>
         Get(s, entries[k].id) == Some(if k < i then Pushed(drive, folderId, entries[k]) else entries[k])
  }

  /** One pass of the loop keeps its invariant. */
  method PushNext(s0: Store, s: Store, drive: Drive, folderId: string, entries: seq<Entry>,
                  i: int, synced: nat, errors: nat)
    returns (s': Store, synced': nat, errors': nat)
    requires i < |entries|
    requires forall a, b :: 0 <= a < b < |entries| ==> entries[a].id != entries[b].id
    requires PushedUpTo(s0, s, drive, folderId, entries, i, synced, errors)
    ensures PushedUpTo(s0, s', drive, folderId, entries, i + 1, synced', errors')
  {
    var pushed;
    s', pushed := PushEntry(s, drive, folderId, entries[i]);
    if pushed {
      synced', errors' := synced + 1, errors;
    } else {
      synced', errors' := synced, errors + 1;
    }
    FailuresSnoc(drive, folderId, entries, i);
    PushedStep(s, s', drive, folderId, entries, i);
  }

  lemma PushedNone(s: Store, drive: Drive, folderId: string)
    requires Valid(s)
    ensures PushedUpTo(s, s, drive, folderId, GetAll(s, None), 0, 0, 0)
    ensures forall a, b :: 0 <= a < b < |GetAll(s, None)| ==> GetAll(s, None)[a].id != GetAll(s, None)[b].id
  {
    ListingRowsFound(s);
    assert GetAll(s, None)[..0] == [];
  }

  lemma PushedAll(s: Store, s': Store, drive: Drive, folderId: string, synced: int, errors: int)
    requires Valid(s)
    requires PushedUpTo(s, s', drive, folderId, GetAll(s, None), |GetAll(s, None)|, synced, errors)
    ensures synced + errors == |s.rows|
    ensures errors == Failures(drive, folderId, GetAll(s, None))
    ensures forall e :: e in s.rows ==> Get(s', e.id) == Some(Pushed(drive, folderId, e))
  {
    var entries := GetAll(s, None);
    ListingHoldsEveryRow(s);
    assert entries[..|entries|] == entries;
    forall e | e in s.rows ensures Get(s', e.id) == Some(Pushed(drive, folderId, e)) {
      var k :| 0 <= k < |entries| && entries[k] == e;
    }
  }

  /** The loop of `sync_all_entries()` over the full listing, once the
      folder is known. Each entry counts as synced or as an error, so the two
      counts add up to the number of entries; exactly the rows that got a new
      file record its id, and no other column or row changes. */
  method PushAll(s: Store, drive: Drive, folderId: string) returns (s': Store, synced: nat, errors: nat)
    requires Valid(s)
    ensures synced + errors == |s.rows|
    ensures errors == Failures(drive, folderId, GetAll(s, None))
    ensures Valid(s') && s'.nextId == s.nextId
    ensures SameIds(s', s)
    ensures forall e :: e in s.rows ==> Get(s', e.id) == Some(Pushed(drive, folderId, e))
  {
    var entries := GetAll(s, None);
    PushedNone(s, drive, folderId);
    synced, errors := 0, 0;
    s' := s;
    var i := 0;
    while i < |entries|
      invariant PushedUpTo(s, s', drive, folderId, entries, i, synced, errors)
    {
      s', synced, errors := PushNext(s, s', drive, folderId, entries, i, synced, errors);
      i := i + 1;
    }
    PushedAll(s, s', drive, folderId, synced, errors);
  }

  /** `sync_all_entries()`. A failure to reach the service or the folder
      escapes before any entry is touched; otherwise every entry of the
      listing is pushed once and a failing entry is counted while the loop
      goes on. */
  method SyncAll(s: Store, drive: Drive) returns (s': Store, r: Result<Tally, string>)
    requires Valid(s)
    ensures r.Err? ==> s' == s
    ensures r.Err? <==> drive.service.Err? || drive.folder.Err?
    ensures drive.service.Err? ==> r == Err(drive.service.error)
    ensures drive.service.Ok? && drive.folder.Err? ==> r == Err(drive.folder.error)
    ensures r.Ok? ==> r.value.synced + r.value.errors == |s.rows|
    ensures r.Ok? ==> r.value.errors == Failures(drive, drive.folder.value, GetAll(s, None))
    ensures Valid(s') && s'.nextId == s.nextId
    ensures forall j :: Get(s', j).None? <==> Get(s, j).None?
    ensures r.Ok? ==> forall e :: e in s.rows ==> Get(s', e.id) == Some(Pushed(drive, drive.folder.value, e))
  {
    if drive.service.Err? {
      return s, Err(drive.service.error);
    }
    if drive.folder.Err? {
      return s, Err(drive.folder.error);
    }
    var synced, errors;
    s', synced, errors := PushAll(s, drive, drive.folder.value);
    SameIdsSameKeys(s', s);
    r := Ok(Tally(synced, errors));
  }
}

=== FILE: entry_store.dfy ===
/** The `entries` table of database.py as an immutable value.

    A store is the table's rows in rowid order together with the
    AUTOINCREMENT counter: `nextId` is one more than the largest id ever
    issued, so ids of deleted rows are never handed out again. SQL statements
    become pure functions; a statement's effect on the table is stated through
    `Get`, the model of `SELECT * FROM entries WHERE id = ?`. */
module EntryStore {
  import opened Results
  import opened Text

  // ---------------------------------------------------------------------------
  // Rows
  // ---------------------------------------------------------------------------

  /** The values the CHECK constraint on the `type` column admits. */
  datatype EntryType = Note | Link | Document

  /** The text stored in the `type` column. */
  function TypeName(t: EntryType): string {
    match t
    case Note => "note"
    case Link => "link"
    case Document => "document"
  }

  /** `CHECK(type IN ('note', 'link', 'document'))`: a type text is admitted
      exactly when it is one of the three names, and then names that type. */
  function ParseType(s: string): (r: Option<EntryType>)
    ensures r.Some? <==> s == "note" || s == "link" || s == "document"
    ensures r.Some? ==> TypeName(r.value) == s
  {
    if s == "note" then Some(Note)
    else if s == "link" then Some(Link)
    else if s == "document" then Some(Document)
    else None
  }

  /** `entry['type'].upper()` */
  function TypeTag(t: EntryType): string {
    UpperAscii(TypeName(t))
  }

  /** The three tags the rendered text shows. */
  lemma TypeTagValues(t: EntryType)
    ensures TypeTag(t) == match t
                          case Note => "NOTE"
                          case Link => "LINK"
                          case Document => "DOCUMENT"
  {
    match t
    case Note => assert UpperAscii("note") == "NOTE";
    case Link => assert UpperAscii("link") == "LINK";
    case Document => assert UpperAscii("document") == "DOCUMENT";
  }

  /** One row. A NULL `url` is represented as the empty string: every reader
      of the column treats NULL and '' alike. `createdAt` is the text SQLite's
      CURRENT_TIMESTAMP produced. */
  datatype Entry = Entry(
    id: int,
    kind: EntryType,
    title: string,
    content: string,
    url: string,
    createdAt: string,
    driveFileId: Option<string>)

  /** `if entry["drive_file_id"]:` is false for NULL and for ''. */
  predicate HasDriveFile(e: Entry) {
    e.driveFileId.Some? && e.driveFileId.value != ""
  }

  // ---------------------------------------------------------------------------
  // The table
  // ---------------------------------------------------------------------------

  datatype Store = Store(rows: seq<Entry>, nextId: int)

  /** The largest rowid SQLite can issue (a signed 64-bit integer). */
  const MaxRowId: int := 0x7FFF_FFFF_FFFF_FFFF

  predicate IdsAscending(rows: seq<Entry>) {
    forall i, j :: 0 <= i < j < |rows| ==> rows[i].id < rows[j].id
  }

  /** The table invariant: rows in increasing id order, every id issued by
      the counter, the counter within the rowid range. */
  predicate Valid(s: Store) {
    && 1 <= s.nextId <= MaxRowId + 1
    && (forall i :: 0 <= i < |s.rows| ==> 1 <= s.rows[i].id < s.nextId)
    && IdsAscending(s.rows)
  }

  /** The table `init_db` creates: no rows, AUTOINCREMENT starting at 1. */
  function Empty(): (s: Store)
    ensures Valid(s) && |s.rows| == 0
    ensures forall id :: Get(s, id).None?
    ensures s.nextId == 1
  {
    Store([], 1)
  }

  // ---------------------------------------------------------------------------
  // SELECT * FROM entries WHERE id = ?
  // ---------------------------------------------------------------------------

  /** The first row with the given id. */
  function FindRow(rows: seq<Entry>, id: int): (r: Option<Entry>)
    ensures r.Some? ==> r.value in rows && r.value.id == id
    ensures r.None? <==> forall i :: 0 <= i < |rows| ==> rows[i].id != id
  {
    if |rows| == 0 then None
    else if rows[0].id == id then Some(rows[0])
    else FindRow(rows[1..], id)
  }

  /** `get_entry(entry_id)`: the entry with that id, or None when the table
      holds no such row. */
  function Get(s: Store, id: int): (r: Option<Entry>)
    ensures r.Some? ==> r.value in s.rows && r.value.id == id
    ensures r.None? <==> forall i :: 0 <= i < |s.rows| ==> s.rows[i].id != id
  {
    FindRow(s.rows, id)
  }

  /** Rows of a table with ascending ids are told apart by their ids. */
  lemma IdsIdentifyRows(rows: seq<Entry>, x: Entry, y: Entry)
    requires IdsAscending(rows)
    requires x in rows && y in rows
    ensures x.id == y.id ==> x == y
  {
    var a :| 0 <= a < |rows| && rows[a] == x;
    var b :| 0 <= b < |rows| && rows[b] == y;
  }

  /** In a valid table every row is what `get_entry` returns for its id. */
  lemma GetRow(s: Store, e: Entry)
    requires Valid(s)
    requires e in s.rows
    ensures Get(s, e.id) == Some(e)
  {
    IdsIdentifyRows(s.rows, e, Get(s, e.id).value);
  }

  // ---------------------------------------------------------------------------
  // INSERT INTO entries (type, title, content, url) VALUES (?, ?, ?, ?)
  // ---------------------------------------------------------------------------

  /** A statement rejected by SQLite: a NOT NULL or CHECK constraint failed
      (IntegrityError), or the AUTOINCREMENT counter is exhausted
      (SQLITE_FULL, raised while the new rowid is chosen, before any
      constraint is checked). */
  datatype StoreError = ConstraintFailed | TableFull

  datatype Inserted = Inserted(store: Store, id: int)

  lemma {:induction false} FindRowAppend(rows: seq<Entry>, e: Entry, id: int)
    ensures FindRow(rows + [e], id)
         == if FindRow(rows, id).Some? then FindRow(rows, id)
            else if e.id == id then Some(e) else None
    decreases |rows|
  {
    if |rows| == 0 {
      assert rows + [e] == [e];
    } else {
      assert (rows + [e])[1..] == rows[1..] + [e];
      FindRowAppend(rows[1..], e, id);
    }
  }

  /** `add_entry(entry_type, title, content, url)` at time `now`.
      The insert succeeds exactly when the type passes the CHECK constraint,
      title and content are not NULL and the counter is not exhausted. The
      new row gets an id no existing or earlier row ever held, reads back as
      inserted (with no Drive file yet), and no other row changes. */
  function Insert(s: Store, kind: string, title: Option<string>, content: Option<string>,
                  url: string, now: string): (r: Result<Inserted, StoreError>)
    requires Valid(s)
    ensures r.Ok? <==> s.nextId <= MaxRowId && ParseType(kind).Some? && title.Some? && content.Some?
    ensures r.Err? && s.nextId > MaxRowId ==> r.error == TableFull
    ensures r.Err? && s.nextId <= MaxRowId ==> r.error == ConstraintFailed
    ensures r.Ok? ==>
      && Valid(r.value.store)
      && r.value.id >= s.nextId
      && r.value.store.nextId == r.value.id + 1
      && Get(s, r.value.id).None?
      && Get(r.value.store, r.value.id)
         == Some(Entry(r.value.id, ParseType(kind).value, title.value, content.value, url, now, None))
      && (forall j :: j != r.value.id ==> Get(r.value.store, j) == Get(s, j))
  {
    if s.nextId > MaxRowId then Err(TableFull)
    else
      match (ParseType(kind), title, content)
      case (Some(t), Some(ti), Some(c)) =>
        var id := s.nextId;
        var e := Entry(id, t, ti, c, url, now, None);
        var s' := Store(s.rows + [e], id + 1);
        assert forall j :: FindRow(s'.rows, j)
                         == if FindRow(s.rows, j).Some? then FindRow(s.rows, j)
                            else if e.id == j then Some(e) else None
        by {
          forall j { FindRowAppend(s.rows, e, j); }
        }
        Ok(Inserted(s', id))
      case _ => Err(ConstraintFailed)
  }

  // ---------------------------------------------------------------------------
  // DELETE FROM entries WHERE id = ?
  // ---------------------------------------------------------------------------

  function RemoveId(rows: seq<Entry>, id: int): (r: seq<Entry>)
    ensures forall e :: e in r <==> e in rows && e.id != id
    ensures forall j :: j != id ==> FindRow(r, j) == FindRow(rows, j)
    ensures (forall i :: 0 <= i < |rows| ==> rows[i].id != id) ==> r == rows
  {
    if |rows| == 0 then []
    else if rows[0].id == id then RemoveId(rows[1..], id)
    else
      var t := RemoveId(rows[1..], id);
      assert ([rows[0]] + t)[1..] == t;
      assert (forall i :: 0 <= i < |rows| ==> rows[i].id != id) ==> [rows[0]] + t == rows;
      [rows[0]] + t
  }

  /** Removing rows keeps the others in their order. */
  lemma {:induction false} RemoveIdAscending(rows: seq<Entry>, id: int)
    requires IdsAscending(rows)
    ensures IdsAscending(RemoveId(rows, id))
    decreases |rows|
  {
    if |rows| > 0 {
      RemoveIdAscending(rows[1..], id);
      if rows[0].id != id {
        var t := RemoveId(rows[1..], id);
        TailAboveHead(rows);
        AscendingCons(rows[0], t);
      }
    }
  }

  lemma TailAboveHead(rows: seq<Entry>)
    requires |rows| > 0 && IdsAscending(rows)
    ensures forall e :: e in rows[1..] ==> rows[0].id < e.id
  {
    forall e | e in rows[1..] ensures rows[0].id < e.id {
      var k :| 0 <= k < |rows[1..]| && rows[1..][k] == e;
      assert rows[k + 1] == e;
    }
  }

  lemma AscendingCons(x: Entry, t: seq<Entry>)
    requires IdsAscending(t)
    requires forall e :: e in t ==> x.id < e.id
    ensures IdsAscending([x] + t)
  {
    var r := [x] + t;
    forall a, b | 0 <= a < b < |r| ensures r[a].id < r[b].id {
      assert r[b] == t[b - 1];
      if a == 0 {
        assert t[b - 1] in t;
      } else {
        assert r[a] == t[a - 1];
      }
    }
  }

  /** `delete_entry(entry_id)`: afterwards no row has that id, every other id
      reads back as before, and the AUTOINCREMENT counter keeps its value.
      Deleting an absent id leaves the table as it was. */
  function Delete(s: Store, id: int): (r: Store)
    ensures Get(r, id).None?
    ensures forall j :: j != id ==> Get(r, j) == Get(s, j)
    ensures r.nextId == s.nextId
    ensures Get(s, id).None? ==> r == s
    ensures Valid(s) ==> Valid(r)
  {
    var rows := RemoveId(s.rows, id);
    assert Valid(s) ==> IdsAscending(rows) by {
      if Valid(s) { RemoveIdAscending(s.rows, id); }
    }
    Store(rows, s.nextId)
  }

  // ---------------------------------------------------------------------------
  // UPDATE entries SET drive_file_id = ? WHERE id = ?
  // ---------------------------------------------------------------------------

  /** The row `e` with its Drive file id replaced. */
  function WithFileId(e: Entry, fileId: string): Entry {
    e.(driveFileId := Some(fileId))
  }

  function SetFileIdRows(rows: seq<Entry>, id: int, fileId: string): (r: seq<Entry>)
    ensures |r| == |rows|
    ensures forall i :: 0 <= i < |r| ==> r[i].id == rows[i].id
    ensures FindRow(r, id) == if FindRow(rows, id).Some? then Some(WithFileId(FindRow(rows, id).value, fileId)) else None
    ensures forall j :: j != id ==> FindRow(r, j) == FindRow(rows, j)
  {
    if |rows| == 0 then []
    else
      var t := SetFileIdRows(rows[1..], id, fileId);
      var head := if rows[0].id == id then WithFileId(rows[0], fileId) else rows[0];
      assert ([head] + t)[1..] == t;
      [head] + t
  }

  /** `update_drive_file_id(entry_id, file_id)`: the row with that id gets
      the file id and keeps every other column; every other row, the row set
      and the counter are unchanged. */
  function SetDriveFileId(s: Store, id: int, fileId: string): (r: Store)
    ensures Get(r, id) == if Get(s, id).Some? then Some(WithFileId(Get(s, id).value, fileId)) else None
    ensures forall j :: j != id ==> Get(r, j) == Get(s, j)
    ensures r.nextId == s.nextId
    ensures SameIds(r, s)
    ensures Valid(s) ==> Valid(r)
  {
    Store(SetFileIdRows(s.rows, id, fileId), s.nextId)
  }

  /** The two tables hold rows under the same ids, in the same order. */
  predicate SameIds(a: Store, b: Store) {
    |a.rows| == |b.rows| && forall i :: 0 <= i < |a.rows| ==> a.rows[i].id == b.rows[i].id
  }

  /** Tables with the same ids answer `get_entry` for the same ids. */
  lemma SameIdsSameKeys(a: Store, b: Store)
    requires SameIds(a, b)
    ensures forall j :: Get(a, j).None? <==> Get(b, j).None?
  {
  }

  // ---------------------------------------------------------------------------
  // SELECT * FROM entries [WHERE title LIKE ? OR content LIKE ?]
  //   ORDER BY created_at DESC
  // ---------------------------------------------------------------------------

  /** `if search_query:` takes the filtered branch only for a non-empty
      string; None and '' list every entry. */
  predicate Searching(q: Option<string>) {
    q.Some? && q.value != ""
  }

  /** `title LIKE '%q%' OR content LIKE '%q%'` */
  predicate Matches(e: Entry, q: string) {
    ContainsFolded(e.title, q) || ContainsFolded(e.content, q)
  }

  predicate Selected(e: Entry, q: Option<string>) {
    !Searching(q) || Matches(e, q.value)
  }

  function FilterRows(rows: seq<Entry>, q: Option<string>): (r: seq<Entry>)
    ensures forall e :: multiset(r)[e] == if Selected(e, q) then multiset(rows)[e] else 0
  {
    if |rows| == 0 then []
    else
      assert rows == [rows[0]] + rows[1..];
      if Selected(rows[0], q) then [rows[0]] + FilterRows(rows[1..], q)
      else FilterRows(rows[1..], q)
  }

  /** `ORDER BY created_at DESC`: no row was created later than one listed
      before it. The column holds CURRENT_TIMESTAMP text compared by BINARY
      collation, that is, lexicographically. */
  predicate NewestFirst(xs: seq<Entry>) {
    forall i, j :: 0 <= i < j < |xs| ==> TextLe(xs[j].createdAt, xs[i].createdAt)
  }

  lemma NewestFirstCons(x: Entry, ys: seq<Entry>)
    requires NewestFirst(ys)
    requires forall y :: y in ys ==> TextLe(y.createdAt, x.createdAt)
    ensures NewestFirst([x] + ys)
  {
    var xs := [x] + ys;
    forall i, j | 0 <= i < j < |xs| ensures TextLe(xs[j].createdAt, xs[i].createdAt) {
      if i == 0 {
        assert xs[j] == ys[j - 1];
      } else {
        assert xs[i] == ys[i - 1] && xs[j] == ys[j - 1];
      }
    }
  }

  lemma NewestFirstTail(xs: seq<Entry>)
    requires |xs| > 0 && NewestFirst(xs)
    ensures NewestFirst(xs[1..])
  {
    forall i, j | 0 <= i < j < |xs[1..]| ensures TextLe(xs[1..][j].createdAt, xs[1..][i].createdAt) {
      assert xs[1..][i] == xs[i + 1] && xs[1..][j] == xs[j + 1];
    }
  }

  /** A timestamp at or after the newest one is at or after all of them. */
  lemma NewerThanAll(e: Entry, xs: seq<Entry>)
    requires |xs| > 0 && NewestFirst(xs)
    requires TextLe(xs[0].createdAt, e.createdAt)
    ensures forall y :: y in xs ==> TextLe(y.createdAt, e.createdAt)
  {
    forall y | y in xs ensures TextLe(y.createdAt, e.createdAt) {
      var k :| 0 <= k < |xs| && xs[k] == y;
      if k > 0 { TextLeTransitive(y.createdAt, xs[0].createdAt, e.createdAt); }
    }
  }

  /** Inserting an entry older than the head of `xs` into its tail keeps
      everything at or before that head. */
  lemma OlderThanHead(e: Entry, xs: seq<Entry>, t: seq<Entry>)
    requires |xs| > 0 && NewestFirst(xs)
    requires !TextLe(xs[0].createdAt, e.createdAt)
    requires multiset(t) == multiset(xs[1..]) + multiset{e}
    ensures forall y :: y in t ==> TextLe(y.createdAt, xs[0].createdAt)
  {
    TextLeTotal(xs[0].createdAt, e.createdAt);
    forall y | y in t ensures TextLe(y.createdAt, xs[0].createdAt) {
      assert y in multiset(t);
      if y != e {
        assert y in multiset(xs[1..]);
        var k :| 0 <= k < |xs[1..]| && xs[1..][k] == y;
        assert xs[k + 1] == y;
      }
    }
  }

  /** Places `e` into a newest-first list. */
  function InsertByDate(e: Entry, xs: seq<Entry>): (r: seq<Entry>)
    requires NewestFirst(xs)
    ensures NewestFirst(r)
    ensures multiset(r) == multiset(xs) + multiset{e}
  {
    if |xs| == 0 then [e]
    else if TextLe(xs[0].createdAt, e.createdAt) then
      NewerThanAll(e, xs);
      NewestFirstCons(e, xs);
      [e] + xs
    else
      NewestFirstTail(xs);
      var t := InsertByDate(e, xs[1..]);
      OlderThanHead(e, xs, t);
      NewestFirstCons(xs[0], t);
      assert xs == [xs[0]] + xs[1..];
      [xs[0]] + t
  }

  /** Orders rows newest first (an insertion sort). Rows with equal
      timestamps may come in any order: SQL leaves it unspecified. */
  function SortNewestFirst(xs: seq<Entry>): (r: seq<Entry>)
    ensures NewestFirst(r)
    ensures multiset(r) == multiset(xs)
  {
    if |xs| == 0 then []
    else
      assert xs == [xs[0]] + xs[1..];
      InsertByDate(xs[0], SortNewestFirst(xs[1..]))
  }

  /** `get_all_entries(search_query)`: every selected row exactly as often as
      the table holds it, no other row, newest first. With a non-empty query
      a row is selected when its title or content contains the query,
      ignoring ASCII case; otherwise every row is selected. */
  function GetAll(s: Store, q: Option<string>): (r: seq<Entry>)
    ensures NewestFirst(r)
    ensures forall e :: multiset(r)[e] == if Selected(e, q) then multiset(s.rows)[e] else 0
  {
    SortNewestFirst(FilterRows(s.rows, q))
  }

  /** A filtered listing is a sub-listing of the unfiltered one, and a search
      for '' is no search at all. */
  lemma SearchWithinAll(s: Store, q: string)
    ensures forall e :: multiset(GetAll(s, Some(q)))[e] <= multiset(GetAll(s, None))[e]
    ensures multiset(GetAll(s, Some(""))) == multiset(GetAll(s, None))
  {
    assert multiset(GetAll(s, Some(""))) == multiset(GetAll(s, None)) by {
      forall e ensures multiset(GetAll(s, Some("")))[e] == multiset(GetAll(s, None))[e] {}
    }
  }

  /** With a non-empty query, an entry is listed exactly when it is a row of
      the table whose title or content contains the query as a substring,
      ignoring ASCII case. */
  lemma SearchExact(s: Store, q: string, e: Entry)
    requires q != ""
    ensures e in GetAll(s, Some(q))
        <==> e in s.rows && (OccursFolded(q, e.title) || OccursFolded(q, e.content))
  {
    assert e in GetAll(s, Some(q)) <==> e in multiset(GetAll(s, Some(q)));
    assert e in s.rows <==> e in multiset(s.rows);
  }

  /** A table of one selected row lists exactly that row. */
  lemma GetAllSingle(s: Store, q: Option<string>, e: Entry)
    requires s.rows == [e] && Selected(e, q)
    ensures GetAll(s, q) == [e]
  {
    var hits := GetAll(s, q);
    assert multiset(hits)[e] == 1;
    assert forall x :: x != e ==> multiset(hits)[x] == 0;
    assert multiset(hits) == multiset{e};
    assert |hits| == 1;
    assert hits[0] in multiset(hits);
  }

  /** A sequence with ascending ids holds each element at most once. */
  lemma {:induction false} AscendingCountOne(xs: seq<Entry>, x: Entry)
    requires IdsAscending(xs)
    ensures multiset(xs)[x] <= 1
    decreases |xs|
  {
    if |xs| > 0 {
      assert xs == [xs[0]] + xs[1..];
      AscendingCountOne(xs[1..], x);
      forall k | 0 <= k < |xs[1..]| ensures xs[1..][k] != xs[0] {
        assert xs[1..][k].id == xs[k + 1].id;
      }
      assert xs[0] !in xs[1..];
    }
  }

  /** An element occurring at two positions is counted at least twice. */
  lemma RepeatCountsTwice(r: seq<Entry>, i: int, j: int)
    requires 0 <= i < j < |r|
    ensures r[i] == r[j] ==> multiset(r)[r[i]] >= 2
  {
    assert r == r[..j] + [r[j]] + r[j + 1..];
    assert multiset(r) == multiset(r[..j]) + multiset{r[j]} + multiset(r[j + 1..]);
    assert r[i] in r[..j];
  }

  /** The listing of a valid table names each id at most once. */
  lemma ListingIdsDistinct(s: Store, q: Option<string>)
    requires Valid(s)
    ensures forall i, j :: 0 <= i < j < |GetAll(s, q)| ==> GetAll(s, q)[i].id != GetAll(s, q)[j].id
  {
    var r := GetAll(s, q);
    forall i, j | 0 <= i < j < |r| ensures r[i].id != r[j].id {
      assert r[i] in multiset(r) && r[j] in multiset(r);
      IdsIdentifyRows(s.rows, r[i], r[j]);
      RepeatCountsTwice(r, i, j);
      AscendingCountOne(s.rows, r[i]);
    }
  }
}

=== FILE: html_escape.dfy ===
/** Python's `html.escape` and its inverse.

    `html.escape(s, quote=True)` replaces `&` first and then `<`, `>`, `"` and
    `'`; since no replacement text contains a character replaced later, the
    chain of `str.replace` calls equals the character-by-character mapping
    written here. */
module Html {

  /** The replacement text for one character. */
  function EscapeChar(c: char, quote: bool): string {
    if c == '&' then "&amp;"
    else if c == '<' then "&lt;"
    else if c == '>' then "&gt;"
    else if quote && c == '"' then "&quot;"
    else if quote && c == '\'' then "&#x27;"
    else [c]
  }

  /** Characters `html.escape` rewrites when `quote` is set. */
  predicate IsMarkup(c: char) {
    c == '&' || c == '<' || c == '>' || c == '"' || c == '\''
  }

  /** `html.escape(s, quote)`: the result holds no raw angle bracket (and no
      raw quote character when `quote` is set), so escaped user text cannot
      open or close a tag or leave an attribute value. */
  function Escape(s: string, quote: bool): (r: string)
    ensures '<' !in r && '>' !in r
    ensures quote ==> '"' !in r && '\'' !in r
    ensures |r| >= |s|
    decreases |s|
  {
    if |s| == 0 then "" else EscapeChar(s[0], quote) + Escape(s[1..], quote)
  }

  /** Escaping distributes over concatenation. */
  lemma {:induction false} EscapeConcat(a: string, b: string, quote: bool)
    ensures Escape(a + b, quote) == Escape(a, quote) + Escape(b, quote)
    decreases |a|
  {
    if |a| > 0 {
      assert (a + b)[1..] == a[1..] + b;
      EscapeConcat(a[1..], b, quote);
    } else {
      assert a + b == b;
    }
  }

  /** Text free of markup characters is left as it is. */
  lemma {:induction false} EscapePlain(s: string, quote: bool)
    requires forall i :: 0 <= i < |s| ==> !IsMarkup(s[i])
    ensures Escape(s, quote) == s
    decreases |s|
  {
    if |s| > 0 {
      EscapePlain(s[1..], quote);
      assert s == [s[0]] + s[1..];
    }
  }

  predicate StartsWith(s: string, prefix: string) {
    |prefix| <= |s| && s[..|prefix|] == prefix
  }

  /** Decodes the five character references `Escape` produces; any other
      character, including an `&` that starts none of them, stands for
      itself. */
  function Unescape(s: string): string
    decreases |s|
  {
    if |s| == 0 then ""
    else if s[0] != '&' then [s[0]] + Unescape(s[1..])
    else if StartsWith(s, "&amp;") then "&" + Unescape(s[5..])
    else if StartsWith(s, "&lt;") then "<" + Unescape(s[4..])
    else if StartsWith(s, "&gt;") then ">" + Unescape(s[4..])
    else if StartsWith(s, "&quot;") then "\"" + Unescape(s[6..])
    else if StartsWith(s, "&#x27;") then "'" + Unescape(s[6..])
    else "&" + Unescape(s[1..])
  }

  lemma UnescapeEscapeChar(c: char, quote: bool, rest: string)
    ensures Unescape(EscapeChar(c, quote) + rest) == [c] + Unescape(rest)
  {
    var e := EscapeChar(c, quote);
    var s := e + rest;
    assert s[..|e|] == e && s[|e|..] == rest;
    if c == '&' {
      assert StartsWith(s, "&amp;");
    } else if c == '<' {
      assert s[1] == 'l';
      assert !StartsWith(s, "&amp;");
      assert StartsWith(s, "&lt;");
    } else if c == '>' {
      assert s[1] == 'g';
      assert !StartsWith(s, "&amp;") && !StartsWith(s, "&lt;");
      assert StartsWith(s, "&gt;");
    } else if quote && c == '"' {
      assert s[1] == 'q';
      assert !StartsWith(s, "&amp;") && !StartsWith(s, "&lt;") && !StartsWith(s, "&gt;");
      assert StartsWith(s, "&quot;");
    } else if quote && c == '\'' {
      assert s[1] == '#';
      assert !StartsWith(s, "&amp;") && !StartsWith(s, "&lt;") && !StartsWith(s, "&gt;");
      assert !StartsWith(s, "&quot;");
      assert StartsWith(s, "&#x27;");
    } else {
      assert e == [c] && s[0] == c;
      assert s[1..] == rest;
    }
  }

  /** Unescape recovers the original text from its escaped form, for either
      setting of `quote`: escaping loses no information. */
  lemma {:induction false} UnescapeEscape(s: string, quote: bool)
    ensures Unescape(Escape(s, quote)) == s
    decreases |s|
  {
    if |s| > 0 {
      UnescapeEscapeChar(s[0], quote, Escape(s[1..], quote));
      UnescapeEscape(s[1..], quote);
      assert s == [s[0]] + s[1..];
    }
  }
}

=== FILE: requests.dfy ===
/** The request handlers of app.py with Flask taken away: form fields and the
    clock become parameters, and each language-model provider is an oracle
    that returns the reply text or the message of the exception it raised. */
module Requests {
  import opened Results
  import opened Text
  import opened EntryStore

  /** The category argument of `flash`. */
  datatype Category = ErrorCategory | SuccessCategory | InfoCategory

  datatype Flash = Flash(message: string, category: Category)

  // ---------------------------------------------------------------------------
  // POST /add
  // ---------------------------------------------------------------------------

  datatype AddOutcome =
    | TitleRequired
    | Added(id: int)
    | InsertFailed(error: StoreError)  // the exception escapes the handler

  datatype AddResult = AddResult(store: Store, outcome: AddOutcome, flash: Option<Flash>)

  /** The POST branch of `add`: an empty title is refused before the store is
      touched; otherwise the entry is inserted and reads back as submitted.
      A rejected insert leaves the store as it was. */
  function Add(s: Store, kind: string, title: string, content: string, url: string,
               now: string): (r: AddResult)
    requires Valid(s)
    ensures Valid(r.store)
    ensures title == "" ==>
      r.store == s && r.outcome == TitleRequired
      && r.flash == Some(Flash("Title is required.", ErrorCategory))
    ensures title != "" ==> (r.outcome.Added? <==> ParseType(kind).Some? && s.nextId <= MaxRowId)
    ensures r.outcome.Added? ==>
      && r.flash == Some(Flash("Entry added.", SuccessCategory))
      && r.outcome.id >= s.nextId
      && r.store.nextId == r.outcome.id + 1
      && Get(s, r.outcome.id).None?
      && Get(r.store, r.outcome.id)
         == Some(Entry(r.outcome.id, ParseType(kind).value, title, content, url, now, None))
      && (forall j :: j != r.outcome.id ==> Get(r.store, j) == Get(s, j))
    ensures !r.outcome.Added? ==> r.store == s
    ensures title != "" && !r.outcome.Added? ==>
      && r.outcome == InsertFailed(Insert(s, kind, Some(title), Some(content), url, now).error)
      && r.flash.None?
  {
    if title == "" then
      AddResult(s, TitleRequired, Some(Flash("Title is required.", ErrorCategory)))
    else
      match Insert(s, kind, Some(title), Some(content), url, now)
      case Ok(ins) => AddResult(ins.store, Added(ins.id), Some(Flash("Entry added.", SuccessCategory)))
      case Err(err) => AddResult(s, InsertFailed(err), None)
  }

  // ---------------------------------------------------------------------------
  // Provider selection
  // ---------------------------------------------------------------------------

  datatype Provider = Claude | Gemini

  /** `if provider == "gemini": ... else: ...`: only the exact key "gemini"
      selects Gemini; every other key, known or not, selects Claude without
      any error. */
  function ProviderFor(key: string): (p: Provider)
    ensures p == Gemini <==> key == "gemini"
    ensures p == Claude <==> key != "gemini"
  {
    if key == "gemini" then Gemini else Claude
  }

  /** The text shown when a provider call raised: it names the key the form
      sent, which for an unrecognised key is not the provider that ran. */
  function ProviderError(key: string, message: string): (r: string)
    ensures |r| == 13 + |key| + |message|
    ensures r[..11] == "Error from "
    ensures r[11..11 + |key|] == key && r[11 + |key|..13 + |key|] == ": "
    ensures r[13 + |key|..] == message
  {
    "Error from " + key + ": " + message
  }

  // ---------------------------------------------------------------------------
  // POST /chat: context selection and rendering
  // ---------------------------------------------------------------------------

  /** How many entries the chat context holds at most. */
  const ContextLimit: nat := 10

  /** `f"[{e['type'].upper()}] {e['title']}\n{e['content']}"` followed by
      `f"\nURL: {e['url']}"` when the url is not empty. */
  function RenderEntry(e: Entry): string {
    "[" + TypeTag(e.kind) + "] " + e.title + "\n" + e.content
      + (if e.url != "" then "\nURL: " + e.url else "")
  }

  /** When title, content and url hold no newline, a block's lines are
      exactly the tag line, the content, and `URL: <url>` if there is a url. */
  lemma RenderEntryLines(e: Entry)
    requires '\n' !in e.title && '\n' !in e.content && '\n' !in e.url
    ensures Split(RenderEntry(e), '\n') == ["[" + TypeTag(e.kind) + "] " + e.title, e.content]
                                         + (if e.url != "" then ["URL: " + e.url] else [])
  {
    TypeTagValues(e.kind);
    BlockLines("[" + TypeTag(e.kind) + "] " + e.title, e.content, e.url);
  }

  /** The line structure of a context block, on plain strings. */
  lemma BlockLines(tagLine: string, content: string, url: string)
    requires '\n' !in tagLine && '\n' !in content && '\n' !in url
    ensures Split(tagLine + "\n" + content + (if url != "" then "\nURL: " + url else ""), '\n')
            == [tagLine, content] + (if url != "" then ["URL: " + url] else [])
  {
    var block := tagLine + "\n" + content;
    if url == "" {
      ConcatEmpty(block);
      TwoLines(tagLine, content);
    } else {
      var line := "URL: " + url;
      assert "\nURL: " == "\n" + "URL: ";
      ConcatAssoc("\n", "URL: ", url);
      ThreeLines(tagLine, content, line);
    }
  }

  lemma TwoLines(a: string, b: string)
    requires '\n' !in a && '\n' !in b
    ensures Split(a + "\n" + b, '\n') == [a, b] + []
  {
    SplitPlain(b, '\n');
    SplitCons(a, '\n', b);
  }

  lemma ThreeLines(a: string, b: string, c: string)
    requires '\n' !in a && '\n' !in b && '\n' !in c
    ensures Split(a + "\n" + b + ("\n" + c), '\n') == [a, b] + [c]
  {
    var rest := b + "\n" + c;
    SplitPlain(c, '\n');
    SplitCons(b, '\n', c);
    SplitCons(a, '\n', rest);
    ConcatAssoc(a + "\n", b, "\n" + c);
    ConcatAssoc(b, "\n", c);
    assert [a] + ([b] + [c]) == [a, b] + [c];
  }

  /** A block is the tag line `[TYPE] title`, a newline and the content,
      then a URL line exactly when the url is not empty; the Drive file and
      the timestamp do not enter it. */
  lemma RenderEntryFields(e: Entry, e': Entry)
    ensures e.kind == e'.kind && e.title == e'.title && e.content == e'.content && e.url == e'.url
            ==> RenderEntry(e) == RenderEntry(e')
    ensures var head := "[" + TypeTag(e.kind) + "] " + e.title + "\n" + e.content;
            && |RenderEntry(e)| == |head| + (if e.url != "" then 6 + |e.url| else 0)
            && RenderEntry(e)[..|head|] == head
            && RenderEntry(e)[|head|..] == (if e.url != "" then "\nURL: " + e.url else "")
  {
  }

  function RenderAll(xs: seq<Entry>): (r: seq<string>)
    ensures |r| == |xs|
    ensures forall i :: 0 <= i < |xs| ==> r[i] == RenderEntry(xs[i])
  {
    if |xs| == 0 then [] else [RenderEntry(xs[0])] + RenderAll(xs[1..])
  }

  /** `"\n\n".join(... for e in entries[:10])`: empty for no entries, and
      otherwise opening with the first entry's block. */
  function RenderContext(entries: seq<Entry>): (r: string)
    ensures |entries| == 0 ==> r == ""
    ensures |entries| >= 1 ==>
              |r| >= |RenderEntry(entries[0])| && r[..|RenderEntry(entries[0])|] == RenderEntry(entries[0])
  {
    var shown := if |entries| <= ContextLimit then entries else entries[..ContextLimit];
    var blocks := RenderAll(shown);
    if |blocks| >= 1 then JoinFirst(blocks, "\n\n"); Join(blocks, "\n\n")
    else Join(blocks, "\n\n")
  }

  /** The entries the context is built from: the search for the question, or
      the full listing when that search finds nothing. */
  function ContextEntries(s: Store, question: string): (r: seq<Entry>)
    ensures r == GetAll(s, Some(question)) || r == GetAll(s, None)
    ensures r == [] <==> s.rows == []
    ensures forall e :: e in r ==> e in s.rows
  {
    var hits := GetAll(s, Some(question));
    var all := GetAll(s, None);
    assert s.rows != [] ==> all != [] by {
      if s.rows != [] {
        assert s.rows[0] in multiset(s.rows);
        assert Selected(s.rows[0], None);
        assert s.rows[0] in multiset(all);
      }
    }
    assert forall e :: e in hits ==> e in s.rows by {
      forall e | e in hits ensures e in s.rows {
        assert e in multiset(hits);
      }
    }
    assert forall e :: e in all ==> e in s.rows by {
      forall e | e in all ensures e in s.rows {
        assert e in multiset(all);
      }
    }
    if |hits| == 0 then all else hits
  }

  /** The context is the search result when some entry matches the question,
      and the unfiltered newest-first listing when none does (or when the
      question is empty, since an empty search lists everything). */
  lemma ContextFallback(s: Store, question: string)
    ensures (exists e :: e in s.rows && Selected(e, Some(question)))
            ==> ContextEntries(s, question) == GetAll(s, Some(question))
    ensures (forall e :: e in s.rows ==> !Selected(e, Some(question)))
            ==> ContextEntries(s, question) == GetAll(s, None)
  {
    var hits := GetAll(s, Some(question));
    if exists e :: e in s.rows && Selected(e, Some(question)) {
      var e :| e in s.rows && Selected(e, Some(question));
      assert multiset(s.rows)[e] > 0;
      assert e in multiset(hits);
    }
    if forall e :: e in s.rows ==> !Selected(e, Some(question)) {
      assert forall e :: multiset(hits)[e] == 0 by {
        forall e ensures multiset(hits)[e] == 0 {
          if e in s.rows {} else { assert e !in multiset(s.rows); }
        }
      }
      assert multiset(hits) == multiset{};
    }
  }

  /** Building the context one entry at a time: an entry after the first adds
      a blank line and its block while fewer than ten are shown, and nothing
      once ten are. So the context shows the first ten entries, in list
      order, and nothing of the later ones. */
  lemma {:induction false} RenderContextSnoc(xs: seq<Entry>, x: Entry)
    ensures |xs| == 0 ==> RenderContext(xs + [x]) == RenderEntry(x)
    ensures 1 <= |xs| < ContextLimit ==>
              RenderContext(xs + [x]) == RenderContext(xs) + "\n\n" + RenderEntry(x)
    ensures |xs| >= ContextLimit ==> RenderContext(xs + [x]) == RenderContext(xs)
  {
    if |xs| == 0 {
      assert xs + [x] == [x];
    } else if |xs| < ContextLimit {
      JoinSnoc(RenderAll(xs), "\n\n", RenderEntry(x));
      assert RenderAll(xs + [x]) == RenderAll(xs) + [RenderEntry(x)];
    } else {
      assert (xs + [x])[..ContextLimit] == xs[..ContextLimit];
    }
  }

  /** Lists that agree on their first ten entries give the same context. */
  lemma ContextIgnoresTail(xs: seq<Entry>, ys: seq<Entry>)
    requires |xs| >= ContextLimit && |ys| >= ContextLimit
    requires xs[..ContextLimit] == ys[..ContextLimit]
    ensures RenderContext(xs) == RenderContext(ys)
  {
    assert |xs| == ContextLimit ==> xs == xs[..ContextLimit];
    assert |ys| == ContextLimit ==> ys == ys[..ContextLimit];
  }

  // ---------------------------------------------------------------------------
  // POST /chat: dispatch and error containment
  // ---------------------------------------------------------------------------

  /** One chat completion: the provider, the context and the question, mapped
      to the reply text or to the message of the exception raised. */
  type ChatOracle = (Provider, string, string) -> Result<string, string>

  datatype ChatResult = ChatResult(provider: Provider, context: string, answer: string)

  /** The POST branch of `chat`. Exactly one provider is asked, the one the
      key selects, with the rendered context and the question as sent; its
      reply becomes the answer verbatim, and a raised exception becomes the
      answer "Error from <key>: <message>" instead of escaping. */
  function Chat(s: Store, question: string, key: string, ask: ChatOracle): (r: ChatResult)
    ensures r.provider == ProviderFor(key)
    ensures r.context == RenderContext(ContextEntries(s, question))
    ensures ask(r.provider, r.context, question).Ok? ==>
              r.answer == ask(r.provider, r.context, question).value
    ensures ask(r.provider, r.context, question).Err? ==>
              r.answer == ProviderError(key, ask(r.provider, r.context, question).error)
  {
    var context := RenderContext(ContextEntries(s, question));
    var provider := ProviderFor(key);
    match ask(provider, context, question)
    case Ok(text) => ChatResult(provider, context, text)
    case Err(message) => ChatResult(provider, context, ProviderError(key, message))
  }

  /** With a single note "Test" whose content is "Hello",
      asking "Hello" gives exactly that note's block as context. */
  lemma ChatScenarioSingleNote(now: string, key: string, ask: ChatOracle)
    ensures Insert(Empty(), "note", Some("Test"), Some("Hello"), "", now).Ok?
    ensures var s := Insert(Empty(), "note", Some("Test"), Some("Hello"), "", now).value.store;
            Chat(s, "Hello", key, ask).context == "[NOTE] Test\nHello"
  {
    var e := Entry(1, Note, "Test", "Hello", "", now, None);
    FirstInsert(now);
    var s := Insert(Empty(), "note", Some("Test"), Some("Hello"), "", now).value.store;
    SingleNoteSelected(s, e);
    SingleNoteBlock(e);
  }

  lemma SingleNoteSelected(s: Store, e: Entry)
    requires s.rows == [e] && e.content == "Hello"
    ensures ContextEntries(s, "Hello") == [e]
  {
    assert FoldedAt("Hello", e.content, 0);
    GetAllSingle(s, Some("Hello"), e);
  }

  lemma SingleNoteBlock(e: Entry)
    requires e.kind == Note && e.title == "Test" && e.content == "Hello" && e.url == ""
    ensures RenderContext([e]) == "[NOTE] Test\nHello"
  {
    SingleBlock([e]);
    NoteBlock(e);
  }

  /** One entry is rendered as its block alone, with no separator. */
  lemma SingleBlock(entries: seq<Entry>)
    requires |entries| == 1
    ensures RenderContext(entries) == RenderEntry(entries[0])
  {
    assert RenderAll(entries) == [RenderEntry(entries[0])];
  }

  /** The scenario note renders as its tag line and its content. */
  lemma NoteBlock(e: Entry)
    requires e.kind == Note && e.title == "Test" && e.content == "Hello" && e.url == ""
    ensures RenderEntry(e) == "[NOTE] Test\nHello"
  {
    TypeTagValues(Note);
    assert "[" + "NOTE" + "] " + "Test" + "\n" + "Hello" == "[NOTE] Test\nHello";
  }

  /** The first entry of a new table gets id 1 and is its only row. */
  lemma FirstInsert(now: string)
    ensures var r := Insert(Empty(), "note", Some("Test"), Some("Hello"), "", now);
            && r.Ok? && r.value.id == 1
            && r.value.store.rows == [Entry(1, Note, "Test", "Hello", "", now, None)]
  {
  }

  // ---------------------------------------------------------------------------
  // POST /summarize/<id>
  // ---------------------------------------------------------------------------

  /** One summarisation: the provider and the text, mapped to the summary or
      to the message of the exception raised. */
  type SummaryOracle = (Provider, string) -> Result<string, string>

  /** `f"{entry['title']}\n\n{entry['content']}"`, followed by
      `f"\n\nURL: {entry['url']}"` when the url is not empty. */
  function SummaryText(e: Entry): string {
    e.title + "\n\n" + e.content + (if e.url != "" then "\n\nURL: " + e.url else "")
  }

  /** When title, content and url hold no newline, the summary text is the
      title, a blank line and the content, then a blank line and
      `URL: <url>` if there is a url. */
  lemma SummaryTextLines(e: Entry)
    requires '\n' !in e.title && '\n' !in e.content && '\n' !in e.url
    ensures Split(SummaryText(e), '\n') == [e.title, "", e.content]
                                         + (if e.url != "" then ["", "URL: " + e.url] else [])
  {
    SummaryLines(e.title, e.content, e.url);
  }

  /** The line structure of a summary text, on plain strings. */
  lemma SummaryLines(title: string, content: string, url: string)
    requires '\n' !in title && '\n' !in content && '\n' !in url
    ensures Split(title + "\n\n" + content + (if url != "" then "\n\nURL: " + url else ""), '\n')
            == [title, "", content] + (if url != "" then ["", "URL: " + url] else [])
  {
    if url == "" {
      ConcatEmpty(title + "\n\n" + content);
      BlankAfter(title, content);
      SplitPlain(content, '\n');
    } else {
      var line := "URL: " + url;
      assert "\n\nURL: " == "\n\n" + "URL: ";
      ConcatAssoc("\n\n", "URL: ", url);
      SummaryWithUrl(title, content, line);
    }
  }

  lemma SummaryWithUrl(title: string, content: string, line: string)
    requires '\n' !in title && '\n' !in content && '\n' !in line
    ensures Split(title + "\n\n" + content + ("\n\n" + line), '\n') == [title, "", content] + ["", line]
  {
    var rest := content + "\n\n" + line;
    assert title + "\n\n" + content + ("\n\n" + line) == title + "\n\n" + rest;
    BlankAfter(title, rest);
    BlankAfter(content, line);
    SplitPlain(line, '\n');
    assert [title, ""] + ([content, ""] + [line]) == [title, "", content] + ["", line];
  }

  /** A separator-free piece followed by a blank line splits off as that
      piece and an empty line. */
  lemma BlankAfter(a: string, rest: string)
    requires '\n' !in a
    ensures Split(a + "\n\n" + rest, '\n') == [a, ""] + Split(rest, '\n')
  {
    var tail := "\n" + rest;
    assert "" + "\n" + rest == tail;
    SplitCons("", '\n', rest);
    assert "\n\n" == "\n" + "\n";
    ConcatAssoc(a, "\n", "\n");
    ConcatAssoc(a + "\n", "\n", rest);
    assert a + "\n\n" + rest == a + "\n" + tail;
    SplitCons(a, '\n', tail);
    assert [a] + ([""] + Split(rest, '\n')) == [a, ""] + Split(rest, '\n');
  }

  /** The summary text is made of the title, content and url alone: the
      entry's type, timestamp and Drive file do not enter it, and it carries
      the URL line exactly when the url is not empty. */
  lemma SummaryTextFields(e: Entry, e': Entry)
    ensures e.title == e'.title && e.content == e'.content && e.url == e'.url
            ==> SummaryText(e) == SummaryText(e')
    ensures |SummaryText(e)| == |e.title| + 2 + |e.content| + (if e.url != "" then 7 + |e.url| else 0)
    ensures SummaryText(e)[..|e.title| + 2 + |e.content|] == e.title + "\n\n" + e.content
    ensures SummaryText(e)[|e.title| + 2 + |e.content|..] == (if e.url != "" then "\n\nURL: " + e.url else "")
  {
  }

  datatype SummaryRequest = SummaryRequest(provider: Provider, text: string)

  datatype SummarizeResult = SummarizeResult(request: Option<SummaryRequest>, flash: Flash)

  /** `summarize(entry_id)`. For an absent id no provider is asked and
      "Entry not found." is flashed. Otherwise the provider the key selects
      is asked once with the entry's summary text, and the flash reports the
      summary or the error, both naming the key as sent. */
  function Summarize(s: Store, id: int, key: string, summarize: SummaryOracle): (r: SummarizeResult)
    ensures Get(s, id).None? ==>
      r.request.None? && r.flash == Flash("Entry not found.", ErrorCategory)
    ensures Get(s, id).Some? ==>
      r.request == Some(SummaryRequest(ProviderFor(key), SummaryText(Get(s, id).value)))
    ensures Get(s, id).Some? && summarize(ProviderFor(key), SummaryText(Get(s, id).value)).Ok? ==>
      r.flash == Flash("Summary (" + key + "): "
                       + summarize(ProviderFor(key), SummaryText(Get(s, id).value)).value,
                       InfoCategory)
    ensures Get(s, id).Some? && summarize(ProviderFor(key), SummaryText(Get(s, id).value)).Err? ==>
      r.flash == Flash(ProviderError(key, summarize(ProviderFor(key), SummaryText(Get(s, id).value)).error),
                       ErrorCategory)
  {
    match Get(s, id)
    case None => SummarizeResult(None, Flash("Entry not found.", ErrorCategory))
    case Some(e) =>
      var request := SummaryRequest(ProviderFor(key), SummaryText(e));
      match summarize(request.provider, request.text)
      case Ok(summary) =>
        SummarizeResult(Some(request), Flash("Summary (" + key + "): " + summary, InfoCategory))
      case Err(message) =>
        SummarizeResult(Some(request), Flash(ProviderError(key, message), ErrorCategory))
  }
}

=== FILE: results.dfy ===
/** Failure-carrying datatypes used across the model.

    A Python exception raised by a collaborator (the database, a language-model
    provider, the Drive service) is represented as `Err(message)`, where the
    message is what `str(e)` would produce. */
module Results {

  datatype Option<+T> = None | Some(value: T)

  datatype Result<+T, +E> = Ok(value: T) | Err(error: E)
}

=== FILE: text.dfy ===
/** String helpers shared by the entry store, the request handlers and the
    Drive renderer: ASCII case folding (SQLite LIKE), lexicographic text order
    (SQLite's BINARY collation), Python's `str.split` with a one-character
    separator, `str.join`, and `str.strip` with its whitespace set. */
module Text {

  // ---------------------------------------------------------------------------
  // ASCII case folding
  // ---------------------------------------------------------------------------

  /** SQLite's LIKE folds the case of ASCII letters and of nothing else. */
  function AsciiLower(c: char): char {
    if 'A' <= c <= 'Z' then (c as int + 32) as char else c
  }

  function AsciiUpper(c: char): char {
    if 'a' <= c <= 'z' then (c as int - 32) as char else c
  }

  function UpperAscii(s: string): string {
    if |s| == 0 then "" else [AsciiUpper(s[0])] + UpperAscii(s[1..])
  }

  /** `a` and `b` are equal once ASCII letters are folded to lower case. */
  predicate EqualFold(a: string, b: string) {
    |a| == |b| && forall i :: 0 <= i < |a| ==> AsciiLower(a[i]) == AsciiLower(b[i])
  }

  /** `needle` occurs in `hay` at offset `k`, ignoring ASCII case. */
  predicate FoldedAt(needle: string, hay: string, k: int) {
    0 <= k <= |hay| - |needle| && EqualFold(hay[k..k + |needle|], needle)
  }

  /** `needle` occurs at some offset of `hay`, ignoring ASCII case. */
  ghost predicate OccursFolded(needle: string, hay: string) {
    exists k :: FoldedAt(needle, hay, k)
  }

  /** Dropping the first character of `hay` loses no occurrence unless the
      occurrence is at offset 0. */
  lemma OccursShift(needle: string, hay: string)
    requires |needle| <= |hay|
    requires !FoldedAt(needle, hay, 0)
    ensures OccursFolded(needle, hay) <==> OccursFolded(needle, hay[1..])
  {
    if OccursFolded(needle, hay) {
      var k :| FoldedAt(needle, hay, k);
      assert 1 <= k;
      SliceOfTail(hay, k - 1, k - 1 + |needle|);
      assert FoldedAt(needle, hay[1..], k - 1);
    }
    if OccursFolded(needle, hay[1..]) {
      var k :| FoldedAt(needle, hay[1..], k);
      SliceOfTail(hay, k, k + |needle|);
      assert FoldedAt(needle, hay, k + 1);
    }
  }

  lemma SliceOfTail(s: string, a: int, b: int)
    requires 0 <= a <= b <= |s| - 1
    ensures s[1..][a..b] == s[a + 1..b + 1]
  {
  }

  /** The value of `hay LIKE '%' || needle || '%'` for a needle free of the
      LIKE wildcards `%` and `_`: a case-insensitive (ASCII) substring test. */
  function ContainsFolded(hay: string, needle: string): (b: bool)
    ensures b <==> OccursFolded(needle, hay)
    decreases |hay|
  {
    if |needle| > |hay| then false
    else if FoldedAt(needle, hay, 0) then true
    else
      OccursShift(needle, hay);
      ContainsFolded(hay[1..], needle)
  }

  // ---------------------------------------------------------------------------
  // Concatenation facts, stated on plain variables so that the solver never
  // has to reassociate or slice a long concatenation itself
  // ---------------------------------------------------------------------------

  lemma PrefixOfConcat(a: string, b: string, n: int)
    requires 0 <= n <= |a|
    ensures (a + b)[..n] == a[..n]
  {
  }

  lemma ConcatAssoc(a: string, b: string, c: string)
    ensures a + b + c == a + (b + c)
  {
  }

  lemma ConcatSlices(a: string, b: string, c: string)
    ensures |a + (b + c)| == |a| + |b| + |c|
    ensures (a + (b + c))[..|a|] == a
    ensures (a + (b + c))[|a|..|a| + |b|] == b
    ensures (a + (b + c))[|a| + |b|..] == c
  {
  }

  lemma ConcatEmpty(a: string)
    ensures a + "" == a
  {
  }

  // ---------------------------------------------------------------------------
  // Lexicographic order (SQLite BINARY collation on TEXT)
  // ---------------------------------------------------------------------------

  /** `a` sorts at or before `b` when compared code point by code point, a
      proper prefix sorting first. */
  predicate TextLe(a: string, b: string)
    decreases |a|
  {
    |a| == 0 || (|b| > 0 && (a[0] < b[0] || (a[0] == b[0] && TextLe(a[1..], b[1..]))))
  }

  lemma {:induction false} TextLeTotal(a: string, b: string)
    ensures TextLe(a, b) || TextLe(b, a)
    decreases |a|
  {
    if |a| > 0 && |b| > 0 && a[0] == b[0] {
      TextLeTotal(a[1..], b[1..]);
    }
  }

  lemma {:induction false} TextLeTransitive(a: string, b: string, c: string)
    requires TextLe(a, b) && TextLe(b, c)
    ensures TextLe(a, c)
    decreases |a|
  {
    if |a| > 0 && a[0] == b[0] && b[0] == c[0] {
      TextLeTransitive(a[1..], b[1..], c[1..]);
    }
  }

  lemma {:induction false} TextLeAntisymmetric(a: string, b: string)
    requires TextLe(a, b) && TextLe(b, a)
    ensures a == b
    decreases |a|
  {
    if |a| > 0 {
      TextLeAntisymmetric(a[1..], b[1..]);
      assert a == [a[0]] + a[1..] && b == [b[0]] + b[1..];
    }
  }

  // ---------------------------------------------------------------------------
  // Python's str.join and str.split(sep) with a one-character separator
  // ---------------------------------------------------------------------------

  /** `sep.join(parts)` */
  function Join(parts: seq<string>, sep: string): string
  {
    if |parts| == 0 then ""
    else if |parts| == 1 then parts[0]
    else parts[0] + sep + Join(parts[1..], sep)
  }

  /** Joining one more part appends the separator and that part. */
  lemma {:induction false} JoinSnoc(parts: seq<string>, sep: string, last: string)
    requires |parts| >= 1
    ensures Join(parts + [last], sep) == Join(parts, sep) + sep + last
    decreases |parts|
  {
    if |parts| == 1 {
      assert (parts + [last])[1..] == [last];
    } else {
      assert (parts + [last])[1..] == parts[1..] + [last];
      JoinSnoc(parts[1..], sep, last);
    }
  }

  /** A join opens with its first part. */
  lemma JoinFirst(parts: seq<string>, sep: string)
    requires |parts| >= 1
    ensures |Join(parts, sep)| >= |parts[0]| && Join(parts, sep)[..|parts[0]|] == parts[0]
  {
    if |parts| > 1 {
      PrefixOfConcat(parts[0], sep + Join(parts[1..], sep), |parts[0]|);
      ConcatAssoc(parts[0], sep, Join(parts[1..], sep));
    }
  }

  /** `s.split(c)`: the pieces between occurrences of `c`, never an empty
      list; joining them back with `c` restores `s`. */
  function Split(s: string, c: char): (parts: seq<string>)
    ensures |parts| >= 1
    ensures forall i :: 0 <= i < |parts| ==> c !in parts[i]
    ensures Join(parts, [c]) == s
    decreases |s|
  {
    if |s| == 0 then [""]
    else if s[0] == c then
      var t := Split(s[1..], c);
      assert ([""] + t)[1..] == t;
      assert s == [c] + s[1..];
      [""] + t
    else
      var t := Split(s[1..], c);
      var parts := [[s[0]] + t[0]] + t[1..];
      assert parts[1..] == t[1..];
      assert s == [s[0]] + s[1..];
      parts
  }

  /** Splitting a piece free of the separator yields that piece alone. */
  lemma {:induction false} SplitPlain(p: string, c: char)
    requires c !in p
    ensures Split(p, c) == [p]
    decreases |p|
  {
    if |p| > 0 {
      SplitPlain(p[1..], c);
      assert p == [p[0]] + p[1..];
    }
  }

  /** A leading separator-free piece followed by the separator splits off as
      the first part. */
  lemma {:induction false} SplitCons(p: string, c: char, rest: string)
    requires c !in p
    ensures Split(p + [c] + rest, c) == [p] + Split(rest, c)
    decreases |p|
  {
    var s := p + [c] + rest;
    if |p| == 0 {
      assert s[1..] == rest;
    } else {
      assert s[1..] == p[1..] + [c] + rest;
      SplitCons(p[1..], c, rest);
      assert [p[0]] + p[1..] == p;
    }
  }

  /** Split inverts Join when no part holds the separator. */
  lemma {:induction false} SplitJoin(parts: seq<string>, c: char)
    requires |parts| >= 1
    requires forall i :: 0 <= i < |parts| ==> c !in parts[i]
    ensures Split(Join(parts, [c]), c) == parts
    decreases |parts|
  {
    if |parts| == 1 {
      SplitPlain(parts[0], c);
    } else {
      SplitJoin(parts[1..], c);
      SplitCons(parts[0], c, Join(parts[1..], [c]));
      assert [parts[0]] + parts[1..] == parts;
    }
  }

  // ---------------------------------------------------------------------------
  // Python's str.strip() with no argument
  // ---------------------------------------------------------------------------

  /** The characters Python's `str.isspace` accepts, which `str.strip()`
      removes: tab through carriage return, the four information separators,
      space, NEL, no-break space, and the Unicode space separators and
      line/paragraph separators. */
  predicate IsSpace(c: char) {
    || ('\t' <= c <= '\r')
    || ('\U{1C}' <= c <= '\U{1F}')
    || c == ' '
    || c == '\U{85}'
    || c == '\U{A0}'
    || c == '\U{1680}'
    || ('\U{2000}' <= c <= '\U{200A}')
    || c == '\U{2028}'
    || c == '\U{2029}'
    || c == '\U{202F}'
    || c == '\U{205F}'
    || c == '\U{3000}'
  }

  predicate AllSpace(s: string) {
    forall i :: 0 <= i < |s| ==> IsSpace(s[i])
  }

  function StripStart(s: string): string
    decreases |s|
  {
    if |s| > 0 && IsSpace(s[0]) then StripStart(s[1..]) else s
  }

  function StripEnd(s: string): string
    decreases |s|
  {
    if |s| > 0 && IsSpace(s[|s| - 1]) then StripEnd(s[..|s| - 1]) else s
  }

  /** `s.strip()` */
  function Strip(s: string): string {
    StripEnd(StripStart(s))
  }

  lemma {:induction false} StripStartEmpty(s: string)
    ensures StripStart(s) == "" <==> AllSpace(s)
    ensures StripStart(s) != "" ==> !IsSpace(StripStart(s)[0])
    decreases |s|
  {
    if |s| > 0 && IsSpace(s[0]) {
      StripStartEmpty(s[1..]);
      assert AllSpace(s) <==> AllSpace(s[1..]) by {
        if AllSpace(s[1..]) {
          forall i | 0 <= i < |s| ensures IsSpace(s[i]) {
            if i > 0 { assert s[i] == s[1..][i - 1]; }
          }
        }
      }
    }
  }

  lemma {:induction false} StripEndEmpty(s: string)
    ensures StripEnd(s) == "" <==> AllSpace(s)
    decreases |s|
  {
    if |s| > 0 && IsSpace(s[|s| - 1]) {
      var t := s[..|s| - 1];
      StripEndEmpty(t);
      assert AllSpace(s) <==> AllSpace(t) by {
        if AllSpace(t) {
          forall i | 0 <= i < |s| ensures IsSpace(s[i]) {
            if i < |s| - 1 { assert s[i] == t[i]; }
          }
        }
      }
    }
  }

  /** `s.strip()` is empty exactly when every character of `s` is whitespace,
      so `if p.strip():` keeps the lines holding a visible character. */
  lemma StripEmptyIffBlank(s: string)
    ensures Strip(s) == "" <==> AllSpace(s)
  {
    StripStartEmpty(s);
    StripEndEmpty(StripStart(s));
  }
}
